=== FILE: README.md ===
# ClickHouse flat-file ingestion core, modelled in Dafny

This project models the core of a tool that loads flat files into ClickHouse. The core is three Java classes.

- **`CsvSchemaReader`** infers a column list from a CSV file. The sanitised header names become the column names. Each column's type comes from up to ten sampled data rows, decided in priority order: all empty, then integer, then date.
- **`JsonSchemaReader`** infers the columns from the first object of a JSON array. Each key is sanitised and lower-cased, and the type comes from that object's value.
- **`ClickHouseClient`** does four things:
  - picks the reader from the file extension, case-insensitively;
  - builds a `CREATE TABLE … ENGINE=MergeTree ORDER BY` statement whose key is the first `DateTime`/`Date` column, or else the first column;
  - sends `DROP` then `CREATE` with three attempts and a one-second pause between attempts;
  - streams the data rows (fully quoted CSV lines, or one JSON object per line) in batches of 1000. Each batch goes out as one `INSERT … FORMAT …` statement under the same retry rule.

Modules, one per file:

| module | file | models |
|---|---|---|
| `Wrappers` | wrappers.dfy | `Option`, `Result` and the error cases the Java code throws |
| `Text` | text.dfy | the `[a-zA-Z0-9_]` class, `replaceAll` sanitising, ASCII `toLowerCase`, `endsWith`, `String.join`, and a splitter at a whole separator that inverts it |
| `JavaInt` | java_int.dfy | `Integer.parseInt`: a declarative definition, plus the JDK's negative-accumulation loop proved equal to it |
| `DatePattern` | date_pattern.dfy | the regular expression `\d{4}-\d{2}-\d{2}( \d{2}:\d{2}:\d{2})?` under `String.matches` |
| `Schema` | schema.dfy | column type names and columns |
| `CsvSchemaReader` | csv_schema.dfy | `inferSchema` and `inferColumnType` for CSV |
| `JsonSchemaReader` | json_schema.dfy | `inferSchema` and `inferType` for JSON |
| `Ddl` | ddl.dfy | the CREATE/DROP text, the ORDER BY key, and a parser that reads the CREATE text back |
| `CsvRow` | csv_row.dfy | the per-field quoting of `loadCsvData`, and a record parser in the style of RFC 4180 as its inverse |
| `Retry` | retry.dfy | the `MAX_RETRIES` loop shared by table creation and `executeBatch`, including its pauses |
| `Batching` | batching.dfy | the batch-and-flush loop shared by `loadCsvData` and `loadJsonData`, and the payload of `executeBatch` |
| `ClickHouseClient` | client.dfy | `inferSchema`, `createTableFromFile`, `loadFileData`, `loadCsvData`, `loadJsonData` |

**The database.** JDBC is not modelled. It is replaced by an oracle `ok: nat -> bool` that says whether the n-th statement sent in a run succeeds. A connection that fails to open counts as the attempt's next statement failing, since in both cases the attempt ends with a `SQLException`. Every result records the statements it sent, in order, with their outcomes. Pauses (`Thread.sleep`) appear as `Sleep` events between attempts.

**The files.** Files are handed to the model already parsed:
- a CSV file as its records (header first);
- a JSON file as its objects, each object's entries in the map's iteration order.

Serialising a JSON object is a parameter `serialize` that may fail.

## Behaviour worth knowing

The code behaves in the following ways, which are easy to miss on a first reading. The model keeps each of them.

- **CSV column names.** The CSV reader only sanitises column names and keeps their letter case. Only the JSON reader lower-cases.
- **Negative numbers.** A column of negative integers is typed `UInt32`, because `Integer.parseInt` accepts a sign (`NegativeColumnIsUInt32`).
- **Failed in-loop flushes.** A flush that fails all three attempts inside the row loop does not stop the load. The exception is caught by the per-row handler, which counts one error and keeps the batch. So the next row that serialises produces a flush of 1001 lines that repeats the failed lines. A JSON record that fails to serialise only adds an error in between. Only a failure of the final flush after the loop propagates, and `loadFileData` then raises `BatchInsertFailed` (`BatchInsertFailedOnlyOnFinalFlush`).
- **Empty CSV files.** A CSV file with no header fails schema inference, but loading it completes with nothing sent and no error (`EmptyCsvLoadsNothing`).
- **Empty schemas.** A schema with no columns is not rejected as such. It fails at the `orElse(schema.get(0)…)` of the ORDER BY selection, before any statement is sent. The model calls this `EmptySchema`.
- **Untyped JSON numbers.** Numbers outside the signed 64-bit range are bound to `BigInteger` and typed `String`. Non-integral numbers are typed `String` as well.

## Model

Source paths are relative to the repository root.

| member | source | states |
|---|---|---|
| Text.Lower | src/main/java/com/debajit/clickhouse/ClickHouseClient.java:45 | ASCII `toLowerCase`: same length, each character lower-cased in place |
| Text.EndsWith | src/main/java/com/debajit/clickhouse/ClickHouseClient.java:45-48 | no contract of its own; `String.endsWith`. `KindOf` and `KindExamples` state the dispatch built on it |
| Text.Sanitize | src/main/java/com/debajit/clickhouse/CsvSchemaReader.java:44 | the name keeps its length; every character of the class stays in place and every other character becomes one underscore, so the result is all `[A-Za-z0-9_]` |
| Text.SanitizeLower | src/main/java/com/debajit/clickhouse/JsonSchemaReader.java:46 | a JSON column name keeps the key's length; each of its characters is the key's character at that position with any character outside `[A-Za-z0-9_]` replaced by `_` and then lower-cased, so the name consists of `[a-z0-9_]` only |
| Text.SanitizeFixedPoints | src/main/java/com/debajit/clickhouse/CsvSchemaReader.java:44 | sanitising leaves a name unchanged exactly when the name is already all `[A-Za-z0-9_]` |
| Text.SanitizeIdempotent | src/main/java/com/debajit/clickhouse/CsvSchemaReader.java:44 | sanitising a generated column name again changes nothing |
| Text.SanitizeLowerIdempotent | src/main/java/com/debajit/clickhouse/JsonSchemaReader.java:46 | the JSON naming rule applied twice gives the same name as applied once |
| Text.SanitizeExample | src/main/java/com/debajit/clickhouse/JsonSchemaReader.java:46 | the header "Order Date!" becomes "Order_Date_" under the CSV rule and "order_date_" under the JSON rule |
| JavaInt.Accumulate | src/main/java/com/debajit/clickhouse/CsvSchemaReader.java:64-69 | the JDK's digit loop, which accumulates negatively against a limit, accepts exactly the all-digit strings whose value fits under the limit, and returns minus that value |
| JavaInt.ParseInt | src/main/java/com/debajit/clickhouse/CsvSchemaReader.java:64-69 | `Integer.parseInt` succeeds exactly on an optional sign followed by one or more ASCII digits whose signed value lies in [-2^31, 2^31-1], and returns that value |
| JavaInt.NegativeNumbersParse | src/main/java/com/debajit/clickhouse/CsvSchemaReader.java:64-69 | "-5" and "+42" are integers, with values -5 and 42 |
| JavaInt.RejectedInputs | src/main/java/com/debajit/clickhouse/CsvSchemaReader.java:64-69 | the empty string, a lone sign and "1a" are not integers |
| JavaInt.RangeEnds | src/main/java/com/debajit/clickhouse/CsvSchemaReader.java:64-69 | -2^31 is accepted and 2^31 is rejected |
| DatePattern.MatchesDateIffShape | src/main/java/com/debajit/clickhouse/CsvSchemaReader.java:71-74 | the regular expression accepts exactly the 10-character `YYYY-MM-DD` and 19-character `YYYY-MM-DD HH:MM:SS` digit layouts |
| DatePattern.DateIsNeverInt | src/main/java/com/debajit/clickhouse/CsvSchemaReader.java:64-74 | no value passes both the date test and the integer test |
| DatePattern.MatchesDate | src/main/java/com/debajit/clickhouse/CsvSchemaReader.java:71-74 | no contract of its own; `MatchesDateIffShape` gives the layouts it accepts, and `DateIsNeverInt` separates it from the integer test |
| DatePattern.Examples | src/main/java/com/debajit/clickhouse/JsonSchemaReader.java:62 | "2024-01-15" and "2024-01-15 10:30:00" match; "2024" and "2024-1-15" do not |
| Schema.TypeNameRoundTrip | src/main/java/com/debajit/clickhouse/ClickHouseClient.java:62 | each column type prints as a distinct ClickHouse type name that reads back as the same type |
| CsvSchemaReader.Sample | src/main/java/com/debajit/clickhouse/CsvSchemaReader.java:36-40 | the sample is the first min(10, n-1) records after the header, in file order |
| CsvSchemaReader.HasValue | src/main/java/com/debajit/clickhouse/CsvSchemaReader.java:58 | no contract of its own; the test for rows the scan skips: too short or empty at the column. `Scan` and `BlankRowInsensitive` state its effect |
| CsvSchemaReader.Scan | src/main/java/com/debajit/clickhouse/CsvSchemaReader.java:53-75 | after the loop, `allEmpty` holds iff no row has a non-empty value at the column; `isInteger` iff every such value parses as an int; `isDate` iff every such value matches the date pattern |
| CsvSchemaReader.InferColumnType | src/main/java/com/debajit/clickhouse/CsvSchemaReader.java:52-87 | the type is never `Date`. A column with no non-empty value is `String`. It is `UInt32` iff some value is present and all present values are ints. It is `DateTime` iff some value is present, not all are ints, and all are dates |
| CsvSchemaReader.InferColumnTypeIsTypeOfValues | src/main/java/com/debajit/clickhouse/CsvSchemaReader.java:52-87 | the flag-based loop agrees with a reference rule applied to the set of non-empty values, so the type depends on that set only |
| CsvSchemaReader.PermutationInsensitive | src/main/java/com/debajit/clickhouse/CsvSchemaReader.java:57-75 | reordering the sampled rows never changes a column's type |
| CsvSchemaReader.BlankRowInsensitive | src/main/java/com/debajit/clickhouse/CsvSchemaReader.java:57-60 | inserting or removing a row that is short or empty at the column never changes its type |
| CsvSchemaReader.NegativeColumnIsUInt32 | src/main/java/com/debajit/clickhouse/CsvSchemaReader.java:64-82 | a column holding "-5" and "-17" is typed `UInt32` |
| CsvSchemaReader.PriorityIsImmaterial | src/main/java/com/debajit/clickhouse/CsvSchemaReader.java:77-86 | for a column with a value, "all ints" and "all dates" never both hold, so testing dates before integers would give the same type |
| CsvSchemaReader.InferSchema | src/main/java/com/debajit/clickhouse/CsvSchemaReader.java:27-50 | a file with no header fails with `CsvNoHeader`, and only such a file does. Every file with a header yields a schema: one column per header field, in header order. Each is named by the sanitised field and typed by the rule over the sample's values |
| CsvSchemaReader.OnlyFirstElevenRecords | src/main/java/com/debajit/clickhouse/CsvSchemaReader.java:36-40 | appending records after the header and ten data rows never changes the schema |
| CsvSchemaReader.ColumnNamesStable | src/main/java/com/debajit/clickhouse/CsvSchemaReader.java:43-47 | every generated CSV column name is a fixed point of the sanitiser |
| JsonSchemaReader.IsBoxedIntegral | src/main/java/com/debajit/clickhouse/JsonSchemaReader.java:58 | no contract of its own; an integral number inside the signed 64-bit range, which the JSON parser binds to Integer or Long. `InferType` types exactly these as `UInt32` |
| JsonSchemaReader.InferType | src/main/java/com/debajit/clickhouse/JsonSchemaReader.java:54-67 | the type is never `Date`. It is `UInt32` iff the value is an integral number in the 64-bit range. It is `DateTime` iff the value is a string matching the date pattern. Null, booleans, fractions, arrays and objects are `String` |
| JsonSchemaReader.InferSchema | src/main/java/com/debajit/clickhouse/JsonSchemaReader.java:35-52 | an empty array fails with `JsonEmpty`, and only an empty array does. Every non-empty array yields a schema: one column per entry of the first object, in its order, named by the sanitised lower-cased key and typed from that entry's value |
| JsonSchemaReader.FirstRecordOnly | src/main/java/com/debajit/clickhouse/JsonSchemaReader.java:44-49 | the schema of a non-empty array equals the schema of its first object alone |
| JsonSchemaReader.ColumnsComeFromFirstRecord | src/main/java/com/debajit/clickhouse/JsonSchemaReader.java:44-49 | every column name comes from a key of the first object |
| JsonSchemaReader.QuotedNumberIsString | src/main/java/com/debajit/clickhouse/JsonSchemaReader.java:58-66 | the string "42" is `String`, the number 42 is `UInt32`, and a number just past the 64-bit range is `String` |
| Ddl.IsOrderingType | src/main/java/com/debajit/clickhouse/ClickHouseClient.java:69 | no contract of its own; the stream filter's test for "DateTime" or "Date". `FirstOrderingFrom`, `OrderByIndex` and `DateTimeColumnIsKey` state the search built on it |
| Ddl.FirstOrderingFrom | src/main/java/com/debajit/clickhouse/ClickHouseClient.java:68-70 | the filter finds the first `DateTime`/`Date` column at or after a position, or reports that there is none |
| Ddl.OrderByIndex | src/main/java/com/debajit/clickhouse/ClickHouseClient.java:68-72 | the key column is the first `DateTime`/`Date` column, or column 0 when there is none |
| Ddl.OrderByKey | src/main/java/com/debajit/clickhouse/ClickHouseClient.java:68-72 | the key fails exactly on an empty schema, and succeeds on every non-empty one. It is then the name of the column chosen by `OrderByIndex` |
| Ddl.DateTimeColumnIsKey | src/main/java/com/debajit/clickhouse/ClickHouseClient.java:68-72 | a `DateTime` column preceded by no `DateTime`/`Date` column is the ORDER BY key |
| Ddl.CreateTable | src/main/java/com/debajit/clickhouse/ClickHouseClient.java:59-73 | the statement can be built exactly when the schema is non-empty; otherwise the error is `EmptySchema` |
| Ddl.ParseColumnDefRoundTrip | src/main/java/com/debajit/clickhouse/ClickHouseClient.java:62 | a column definition "`name` Type" with a sanitised name reads back as the same column |
| Ddl.ParseColumnDefsRoundTrip | src/main/java/com/debajit/clickhouse/ClickHouseClient.java:61-66 | the definitions of a well-named schema read back as that schema |
| Ddl.CreateTableRoundTrip | src/main/java/com/debajit/clickhouse/ClickHouseClient.java:59-73 | for a non-empty schema of sanitised names, the CREATE text has the fixed prefix, the table name, each column exactly once in schema order, and the ORDER BY key. Reading it back gives the schema and the key |
| CsvRow.QuotedBodyRoundTrip | src/main/java/com/debajit/clickhouse/ClickHouseClient.java:118 | a field with its quotes doubled, then a closing quote, reads back as the field, with the remainder untouched |
| CsvRow.Quote | src/main/java/com/debajit/clickhouse/ClickHouseClient.java:118 | the field wrapped in quotes: at least two characters longer, starting and ending with `"`. `QuoteRoundTrip` shows it reads back as the field |
| CsvRow.QuoteRoundTrip | src/main/java/com/debajit/clickhouse/ClickHouseClient.java:118 | a quoted field reads back as the same field under an RFC 4180-style reader whose TEXTDATA is every character other than `"`, `,`, CR and LF |
| CsvRow.SerializeRowRoundTrip | src/main/java/com/debajit/clickhouse/ClickHouseClient.java:116-122 | the line built for a record of one or more fields reads back under the RFC 4180-style reader (TEXTDATA: every character other than `"`, `,`, CR and LF) as exactly those fields |
| CsvRow.SerializeRowInjective | src/main/java/com/debajit/clickhouse/ClickHouseClient.java:116-122 | two different non-empty records never give the same line |
| Retry.RunAttempt | src/main/java/com/debajit/clickhouse/ClickHouseClient.java:76-79 | an attempt sends a non-empty prefix of its statements, in order. Every statement before the last succeeded. The attempt succeeds only if it sent them all |
| Retry.WithRetryFrom | src/main/java/com/debajit/clickhouse/ClickHouseClient.java:75-90 | the remaining attempts form a run: at most the remaining number of attempts, every earlier one failed, success iff the last succeeded, and all of them used on failure. The `k`-th statement sent overall gets the oracle's answer at position `next + k` |
| Retry.FollowsOracle | src/main/java/com/debajit/clickhouse/ClickHouseClient.java:75-90 | no contract of its own; the predicate that each statement of each attempt got the oracle's answer for its position, in sending order. `WithRetryFrom`, `WithRetry` and `TwoStatementRetry` ensure it |
| Retry.WithRetry | src/main/java/com/debajit/clickhouse/ClickHouseClient.java:182-196 | one to three attempts. All before the last failed. The run succeeds iff its last attempt did. A failed run used all three. Statements read the oracle in order from `next` |
| Retry.SingleStatementRetry | src/main/java/com/debajit/clickhouse/ClickHouseClient.java:182-196 | one statement succeeds iff one of its first three tries does, and it is tried up to and including the first success |
| Retry.SingleStatementUsed | src/main/java/com/debajit/clickhouse/ClickHouseClient.java:182-196 | a one-statement run sends one statement per attempt |
| Retry.TwoStatementRetry | src/main/java/com/debajit/clickhouse/ClickHouseClient.java:75-81 | with two statements, every attempt starts with the first one and sends the second only after the first succeeded. The run succeeds iff its last attempt ran both. The first DROP gets `ok(next)`, and every statement gets the oracle's answer at its own position, in sending order |
| Retry.Events | src/main/java/com/debajit/clickhouse/ClickHouseClient.java:84-88 | the event log has one pause fewer than there are attempts, and starts and ends with a statement |
| Retry.PausesOnlyBetweenAttempts | src/main/java/com/debajit/clickhouse/ClickHouseClient.java:190-194 | a run pauses at most twice, never before its first statement and never after its last |
| Batching.PayloadIsJoin | src/main/java/com/debajit/clickhouse/ClickHouseClient.java:177-180 | the payload is the lines joined by newlines, with a trailing newline |
| Batching.PayloadLines | src/main/java/com/debajit/clickhouse/ClickHouseClient.java:177-180 | splitting the payload at newlines gives back the lines (plus the empty tail), provided no line holds a newline |
| Batching.FlushBatch | src/main/java/com/debajit/clickhouse/ClickHouseClient.java:176-197 | a flush sends `query + " " + payload` of exactly its lines, on one to three attempts, and all three when it fails. It uses one oracle position per attempt |
| Batching.LoopCounts | src/main/java/com/debajit/clickhouse/ClickHouseClient.java:114-133 | throughout the row loop, the lines acknowledged plus the open batch are exactly the serialised lines so far, in order. Errors are the serialisation failures plus the failed flushes |
| Batching.LoopShape | src/main/java/com/debajit/clickhouse/ClickHouseClient.java:125-131 | throughout the row loop, the open batch holds fewer than 1000 lines unless the last flush failed, in which case it holds that flush's lines. Every flush holds at least 1000 lines. A failed flush is followed by one holding the same lines plus exactly one more |
| Batching.LoopSent | src/main/java/com/debajit/clickhouse/ClickHouseClient.java:125-128 | every in-loop flush sent its own lines under the load's INSERT query |
| Batching.IngestConservation | src/main/java/com/debajit/clickhouse/ClickHouseClient.java:114-137 | a load that completes has had exactly the serialised lines acknowledged, each once and in source order, whatever in-loop flushes failed. Its error count is the serialisation failures plus the failed in-loop flushes. A load whose final flush failed has had a prefix acknowledged, and the rest is that flush's lines |
| Batching.IngestRetainsFailedBatches | src/main/java/com/debajit/clickhouse/ClickHouseClient.java:125-137 | every failed flush is followed by a flush of the same lines plus at most one more, and a completed load ends on a successful flush. Every flush but the last holds at least 1000 lines, and each sent its own lines |
| Batching.ChunksCount | src/main/java/com/debajit/clickhouse/ClickHouseClient.java:21 | cutting into pieces of n gives the least number of pieces that can hold the sequence |
| Batching.ChunksShape | src/main/java/com/debajit/clickhouse/ClickHouseClient.java:21 | every piece but the last has exactly n elements, the last has 1 to n, and the pieces concatenate back to the sequence |
| Batching.IngestChunking | src/main/java/com/debajit/clickhouse/ClickHouseClient.java:123-137 | when every flush succeeds, the flushes are exactly the serialised lines cut into consecutive batches of 1000 |
| Batching.IngestFlushCount | src/main/java/com/debajit/clickhouse/ClickHouseClient.java:123-137 | when every flush succeeds, there are ceil(lines / 1000) of them |
| ClickHouseClient.KindOf | src/main/java/com/debajit/clickhouse/ClickHouseClient.java:44-54 | a path is CSV iff its lower-cased form ends in ".csv". It is JSON iff it does not end in ".csv" but ends in ".json". Any other path is unsupported |
| ClickHouseClient.KindIgnoresCase | src/main/java/com/debajit/clickhouse/ClickHouseClient.java:45 | lower-casing a path never changes how it is dispatched |
| ClickHouseClient.KindExamples | src/main/java/com/debajit/clickhouse/ClickHouseClient.java:45-52 | "DATA.CSV" is CSV, "a.json" and "a.csv.json" are JSON, and "a.txt" is unsupported |
| ClickHouseClient.InferSchema | src/main/java/com/debajit/clickhouse/ClickHouseClient.java:44-54 | an unsupported path fails with `UnsupportedFormat` and nothing else does. Other paths get the matching reader's schema, and every schema has sanitised names |
| ClickHouseClient.CreateTableFromFile | src/main/java/com/debajit/clickhouse/ClickHouseClient.java:56-91 | an inference failure or an empty schema fails before any statement is sent. Success means the last attempt was all ok. `TableCreationFailed` means three attempts were used. Never more than three |
| ClickHouseClient.CreationAttemptsDropThenCreate | src/main/java/com/debajit/clickhouse/ClickHouseClient.java:75-90 | every attempt starts with the DROP and sends the CREATE built from the schema only after that DROP succeeded. Creation succeeds iff the last attempt ran both, and otherwise fails after three attempts |
| ClickHouseClient.CsvItems | src/main/java/com/debajit/clickhouse/ClickHouseClient.java:110-123 | the header is skipped, and every data record yields its quoted line, in file order |
| ClickHouseClient.LoadFileData | src/main/java/com/debajit/clickhouse/ClickHouseClient.java:93-101 | loading fails with `UnsupportedFormat` exactly on the paths the extension test rejects. Its only other failure is `BatchInsertFailed`, and a load it returns did not fail |
| ClickHouseClient.BatchInsertFailedOnlyOnFinalFlush | src/main/java/com/debajit/clickhouse/ClickHouseClient.java:125-137 | loading raises `BatchInsertFailed` exactly when the loader's final flush failed, after all three attempts. The lines acknowledged before it, followed by its own lines, are then all the serialised lines. Otherwise the load is returned |
| Batching.IngestFailureExhaustsRetries | src/main/java/com/debajit/clickhouse/ClickHouseClient.java:135-137 | a load fails only through a final flush that used all three attempts |
| ClickHouseClient.JsonItems | src/main/java/com/debajit/clickhouse/ClickHouseClient.java:153-157 | one item per JSON record, in order: the record's serialised line, or nothing if serialising failed |
| ClickHouseClient.JsonStringTypedLikeCsvValue | src/main/java/com/debajit/clickhouse/JsonSchemaReader.java:61-66 | a JSON string is typed as a CSV column holding only that value would be, except an integer literal: the CSV reader types it `UInt32`, the JSON reader `String` |
| ClickHouseClient.SameDispatch | src/main/java/com/debajit/clickhouse/ClickHouseClient.java:44-54 | inference and loading reject the same paths, and read an accepted path as the same kind of file |
| ClickHouseClient.CsvLoadDeliversRecords | src/main/java/com/debajit/clickhouse/ClickHouseClient.java:110-137 | a completed CSV load of non-empty records has had one line per data record acknowledged, in order. Each line reads back as its record under the RFC 4180-style reader whose TEXTDATA is every character other than `"`, `,`, CR and LF |
| ClickHouseClient.EmptyCsvLoadsNothing | src/main/java/com/debajit/clickhouse/ClickHouseClient.java:110-137 | an empty CSV file fails schema inference, but loading it completes with no flush and no error |
| CsvSchemaReader.ScanRow | src/main/java/com/debajit/clickhouse/CsvSchemaReader.java:57-75 | no contract of its own; one record's effect on the three flags. `InferColumnTypeIsTypeOfValues` states what the whole scan computes |
| CsvSchemaReader.Decide | src/main/java/com/debajit/clickhouse/CsvSchemaReader.java:77-86 | the result is never `Date`. It is `UInt32` iff some value was seen and all were ints. It is `DateTime` iff some value was seen, not all were ints, and all were dates |
| Ddl.ColumnDef | src/main/java/com/debajit/clickhouse/ClickHouseClient.java:62 | no contract of its own; `ParseColumnDefRoundTrip` shows the definition reads back as its column |
| Ddl.ColumnList | src/main/java/com/debajit/clickhouse/ClickHouseClient.java:61-66 | no contract of its own; `ParseColumnDefsRoundTrip` and `CreateTableRoundTrip` show the list reads back as the schema, split at `", "` |
| Ddl.DropTable | src/main/java/com/debajit/clickhouse/ClickHouseClient.java:78 | no contract of its own; `CreationAttemptsDropThenCreate` shows it starts every creation attempt |
| CsvRow.Escape | src/main/java/com/debajit/clickhouse/ClickHouseClient.java:118 | never shortens the field; `QuotedBodyRoundTrip` shows it is undone by the RFC 4180-style reader |
| CsvRow.SerializeRow | src/main/java/com/debajit/clickhouse/ClickHouseClient.java:116-122 | no contract of its own; `SerializeRowRoundTrip` and `SerializeRowInjective` state its behaviour |
| Batching.Payload | src/main/java/com/debajit/clickhouse/ClickHouseClient.java:177-180 | no contract of its own; see `PayloadIsJoin` and `PayloadLines` |
| Batching.InsertStatement | src/main/java/com/debajit/clickhouse/ClickHouseClient.java:185 | no contract of its own; `FlushBatch` states that every attempt sends it |
| Batching.Step | src/main/java/com/debajit/clickhouse/ClickHouseClient.java:114-133 | no contract of its own; `LoopCounts`, `LoopShape` and `LoopSent` state what every iteration preserves |
| Batching.Finish | src/main/java/com/debajit/clickhouse/ClickHouseClient.java:135-137 | no contract of its own; see `IngestConservation` and `IngestFailureExhaustsRetries` |
| Batching.Loop | src/main/java/com/debajit/clickhouse/ClickHouseClient.java:114-133 | no contract of its own; the row loop taken one item at a time. `LoopCounts`, `LoopShape` and `LoopSent` state what it keeps after every prefix |
| Batching.Ingest | src/main/java/com/debajit/clickhouse/ClickHouseClient.java:110-137 | no contract of its own; see `IngestConservation`, `IngestRetainsFailedBatches` and `IngestChunking` |
| ClickHouseClient.InsertQuery | src/main/java/com/debajit/clickhouse/ClickHouseClient.java:105 | no contract of its own; the query each flush sends, per `FlushBatch` |
| ClickHouseClient.LoadOfKind | src/main/java/com/debajit/clickhouse/ClickHouseClient.java:93-101 | no contract of its own; `SameDispatch` shows it is `LoadCsv` for CSV and `LoadJson` for JSON, and `BatchInsertFailedOnlyOnFinalFlush` ties its outcome to `LoadFileData` |
| ClickHouseClient.ItemsOf | src/main/java/com/debajit/clickhouse/ClickHouseClient.java:93-101 | no contract of its own; the row sequence of the chosen loader. See `SameDispatch` |
| ClickHouseClient.QueryOf | src/main/java/com/debajit/clickhouse/ClickHouseClient.java:93-101 | no contract of its own; the insert statement of the chosen loader. See `SameDispatch` |
| ClickHouseClient.LoadCsv | src/main/java/com/debajit/clickhouse/ClickHouseClient.java:103-141 | no contract of its own; see `CsvLoadDeliversRecords` and `EmptyCsvLoadsNothing` |
| ClickHouseClient.LoadJson | src/main/java/com/debajit/clickhouse/ClickHouseClient.java:143-174 | no contract of its own; see `BatchInsertFailedOnlyOnFinalFlush` and the `Batching` lemmas on `Ingest` |

## Left out

- **Connections.** `connect`, the connection URL and credentials, and `getTables`/`getRowCount` are not modelled. Statement outcomes come from an oracle instead, because JDBC and the server are outside the model.
- **Pauses.** `Thread.sleep(RETRY_DELAY_MS)` becomes a `Sleep` event carrying the delay. No clock is modelled.
- **Logging.** Logging, including the "Loaded … rows with … errors" count, is not modelled because it does not affect behaviour. The error counter is modelled. The row counter matters only to the log line and is omitted.
- **`main` methods.** The command-line `main` methods of `ClickHouseClient` and `CsvSchemaReader` are not modelled. `IngestionController.java` is not part of this model.
- **File parsing.** OpenCSV and Jackson parsing are replaced by already-parsed input. This leaves out CSV quoting on input, malformed JSON, non-object array elements, and reader exceptions other than an empty file.
- **JSON serialisation.** `ObjectMapper.writeValueAsString` is the `serialize` parameter, since Jackson's output format is not modelled.
- **Column classes.** The Java `Column` classes are plain records. The mismatch between `CsvSchemaReader.Column` (fields) and the `Column` interface used by the client is treated as one type.
- **Character handling.** `toLowerCase` is modelled on ASCII letters only, because locale-dependent case mapping is not modelled. `Integer.parseInt` is modelled on ASCII digits only, leaving out the other Unicode digits `Character.digit` accepts.
- **Counter overflow.** The 32-bit `int` counters `rowNum` and `errors` are unbounded here. Overflowing them needs more than 2^31 rows.
- Batching.IngestConservation: "acknowledged" means the client saw the INSERT succeed. A statement that ran on the server but whose attempt still ended in a `SQLException` is not modelled: for example, the reply was lost, or closing the statement or connection failed after `execute` returned. The batch is then sent again and its rows are stored twice. The oracle gives one outcome per statement, so the model cannot express this.
- ClickHouseClient.CreateTableFromFile: for the same reason, a CREATE that ran but whose attempt still failed, ending in `TableCreationFailed` with the table in place, is not modelled.
- CsvRow.SerializeRowRoundTrip: a record with no fields serialises to the empty line, which the RFC 4180-style reader reads back as one empty field. The round trip is therefore stated for records with at least one field.
- **Column-name collisions.** Two headers that sanitise to the same name yield two columns of that name, as in the code. `Schema.WellNamed` does not demand distinct names, so `CreateTableRoundTrip` covers such a schema: the statement reads back with the repeated column. The model does not say how the server answers such a statement, since the server is not modelled.

=== FILE: batching.dfy ===
/** The ingestion loop shared by `loadCsvData` and `loadJsonData`.

    Each source row either serialises (`Some(line)`) or fails to (`None`,
    counted as an error).  Lines are collected into a batch; once the batch
    holds BATCH_SIZE lines it is flushed through the retry envelope, inside
    the same per-row `try` as the serialisation.  A flush that fails after
    all its attempts is therefore caught there: it counts as one more row
    error, `batch.clear()` is skipped, and the next line is added to the same
    batch, which is then flushed again.  Only the flush of the remaining
    batch after the loop propagates its failure to the caller. */
module Batching {
  import opened Wrappers
  import opened Text
  import opened Retry

  const BatchSize: nat := 1000

  /** Every line followed by a newline, in order. */
  function Payload(rows: seq<string>): string
    decreases |rows|
  {
    if |rows| == 0 then "" else rows[0] + "\n" + Payload(rows[1..])
  }

  /** The statement one flush sends: the insert query, a space, the payload. */
  function InsertStatement(query: string, rows: seq<string>): string
  {
    query + " " + Payload(rows)
  }

  /** The payload is the lines joined by newlines, plus a final newline. */
  lemma {:induction false} PayloadIsJoin(rows: seq<string>)
    ensures Payload(rows) == Join(rows + [""], "\n")
    decreases |rows|
  {
    if |rows| > 0 {
      PayloadIsJoin(rows[1..]);
      assert (rows + [""])[1..] == rows[1..] + [""];
    } else {
      assert rows + [""] == [""];
    }
  }

  /** For lines without an embedded newline, cutting the payload at its
      newlines gives back the lines in batch order (then the empty text
      after the last newline). */
  lemma PayloadLines(rows: seq<string>)
    requires forall k :: 0 <= k < |rows| ==> '\n' !in rows[k]
    ensures Split(Payload(rows), "\n") == rows + [""]
  {
    PayloadIsJoin(rows);
    var parts := rows + [""];
    var sep := "\n";
    assert forall k :: 0 <= k < |parts| ==> sep[0] !in parts[k] by {
      forall k | 0 <= k < |parts| ensures sep[0] !in parts[k] {
        if k < |rows| { assert parts[k] == rows[k]; }
      }
    }
    SplitJoin(parts, sep);
  }

  /** One flush: the lines it carried and what the retry envelope did. */
  datatype Flush = Flush(rows: seq<string>, run: Run)

  /** Every attempt of the flush sent exactly its insert statement. */
  predicate SentAs(f: Flush, query: string)
  {
    forall i :: 0 <= i < |f.run.attempts| ==>
      |f.run.attempts[i]| == 1 && f.run.attempts[i][0].sql == InsertStatement(query, f.rows)
  }

  /** `executeBatch(insertQuery, batch, tableName)` */
  function FlushBatch(query: string, rows: seq<string>, ok: nat -> bool, next: nat): (f: Flush)
    ensures f.rows == rows && SentAs(f, query)
    ensures 1 <= |f.run.attempts| <= MaxRetries
    ensures !f.run.ok ==> |f.run.attempts| == MaxRetries
    ensures Used(f.run.attempts) == |f.run.attempts|
  {
    SingleStatementUsed(InsertStatement(query, rows), ok, next);
    Flush(rows, WithRetry([InsertStatement(query, rows)], ok, next))
  }

  /** The loop's variables: the batch, the error counter, the flushes so far
      and the oracle position. */
  datatype State = State(batch: seq<string>, errors: nat, flushes: seq<Flush>, next: nat)

  /** One iteration of the per-row `try`.  A flush moves the oracle on by
      one position per attempt (see `FlushBatch`). */
  function Step(st: State, item: Option<string>, query: string, ok: nat -> bool): State
  {
    match item
    case None => st.(errors := st.errors + 1)
    case Some(line) =>
      var b := st.batch + [line];
      if |b| >= BatchSize then
        var f := FlushBatch(query, b, ok, st.next);
        var st' := st.(flushes := st.flushes + [f], next := st.next + Used(f.run.attempts));
        if f.run.ok then st'.(batch := []) else st'.(batch := b, errors := st.errors + 1)
      else st.(batch := b)
  }

  /** The `for` loop over the rows, starting from `st`: the last row's
      iteration runs on the state the earlier rows left. */
  function Loop(st: State, items: seq<Option<string>>, query: string, ok: nat -> bool): State
    decreases |items|
  {
    if |items| == 0 then st
    else Step(Loop(st, items[..|items| - 1], query, ok), items[|items| - 1], query, ok)
  }

  /** What a load leaves behind: every flush with its rows and outcome, the
      error counter, and whether the final flush threw. */
  datatype Load = Load(flushes: seq<Flush>, errors: nat, failed: bool)

  /** After the loop: the remaining batch, if any, is flushed, and its
      failure is the one that propagates. */
  function Finish(st: State, query: string, ok: nat -> bool): Load
  {
    if |st.batch| == 0 then Load(st.flushes, st.errors, false)
    else
      var f := FlushBatch(query, st.batch, ok, st.next);
      Load(st.flushes + [f], st.errors, !f.run.ok)
  }

  /** The loop, then the flush of a non-empty remaining batch. */
  function Ingest(items: seq<Option<string>>, query: string, ok: nat -> bool, next: nat): Load
  {
    Finish(Loop(State([], 0, [], next), items, query, ok), query, ok)
  }

  // ----- Reference quantities, each defined from the end of its sequence -----

  /** The lines that serialised, in source order. */
  function Present(items: seq<Option<string>>): seq<string>
    decreases |items|
  {
    if |items| == 0 then []
    else
      Present(items[..|items| - 1]) +
      (match items[|items| - 1] case Some(line) => [line] case None => [])
  }

  /** The number of rows that failed to serialise. */
  function Missing(items: seq<Option<string>>): nat
    decreases |items|
  {
    if |items| == 0 then 0
    else Missing(items[..|items| - 1]) + (if items[|items| - 1].None? then 1 else 0)
  }

  /** The lines acknowledged by the server: those of the flushes whose last
      attempt's statement succeeded, in order.  A success the client never
      saw (a reply lost, or a failure closing the statement after it ran)
      is not modelled; see README, "Left out". */
  function Delivered(flushes: seq<Flush>): seq<string>
    decreases |flushes|
  {
    if |flushes| == 0 then []
    else
      var f := flushes[|flushes| - 1];
      Delivered(flushes[..|flushes| - 1]) + (if f.run.ok then f.rows else [])
  }

  function FailedCount(flushes: seq<Flush>): nat
    decreases |flushes|
  {
    if |flushes| == 0 then 0
    else FailedCount(flushes[..|flushes| - 1]) + (if flushes[|flushes| - 1].run.ok then 0 else 1)
  }

  predicate AllFlushesOk(flushes: seq<Flush>) { forall i :: 0 <= i < |flushes| ==> flushes[i].run.ok }

  /** A failed flush is followed by one that carries the same lines, plus at
      most one more: the batch was not cleared. */
  predicate RetainsAfterFailure(flushes: seq<Flush>)
  {
    forall i :: 0 <= i < |flushes| - 1 && !flushes[i].run.ok ==>
      && flushes[i].rows <= flushes[i + 1].rows
      && |flushes[i + 1].rows| <= |flushes[i].rows| + 1
  }

  /** Inside the row loop the retained batch always gains the next line
      before it is flushed again: a failed flush is followed by one that
      carries its lines plus exactly one more. */
  predicate GrowsAfterFailure(flushes: seq<Flush>)
  {
    forall i :: 0 <= i < |flushes| - 1 && !flushes[i].run.ok ==>
      && flushes[i].rows <= flushes[i + 1].rows
      && |flushes[i + 1].rows| == |flushes[i].rows| + 1
  }

  function LastFlush(flushes: seq<Flush>): Flush
    requires |flushes| > 0
  {
    flushes[|flushes| - 1]
  }

  /** Invariant, part 1: acknowledged lines plus the batch are the serialised
      lines so far, and the counter is failures of both kinds so far. */
  predicate InvCounts(st: State, done: seq<Option<string>>)
  {
    && Delivered(st.flushes) + st.batch == Present(done)
    && st.errors == Missing(done) + FailedCount(st.flushes)
  }

  /** Invariant, part 2: after a success (or before any flush) the batch is
      below BATCH_SIZE; after a failure it is the failed flush's lines. */
  predicate InvBatch(st: State)
  {
    && (|st.flushes| == 0 || LastFlush(st.flushes).run.ok ==> |st.batch| < BatchSize)
    && (|st.flushes| > 0 && !LastFlush(st.flushes).run.ok ==> st.batch == LastFlush(st.flushes).rows)
  }

  /** Invariant, part 3: what the flushes so far look like. */
  predicate InvFlushes(flushes: seq<Flush>)
  {
    && (forall i :: 0 <= i < |flushes| ==> |flushes[i].rows| >= BatchSize)
    && (AllFlushesOk(flushes) ==> forall i :: 0 <= i < |flushes| ==> |flushes[i].rows| == BatchSize)
    && RetainsAfterFailure(flushes)
  }

  predicate Inv(st: State, done: seq<Option<string>>)
  {
    InvCounts(st, done) && InvBatch(st) && InvFlushes(st.flushes)
  }

  lemma AppendOne<T>(s: seq<T>, x: T)
    ensures (s + [x])[..|s|] == s && (s + [x])[|s|] == x
  {
  }

  /** Appending a flush of the batch plus (possibly) one line keeps the
      shape of the flush list. */
  lemma AppendFlush(flushes: seq<Flush>, batch: seq<string>, f: Flush)
    requires InvFlushes(flushes)
    requires |flushes| > 0 && !LastFlush(flushes).run.ok ==> batch == LastFlush(flushes).rows
    requires (|flushes| == 0 || LastFlush(flushes).run.ok) && f.run.ok ==> |f.rows| <= BatchSize
    requires batch <= f.rows && |f.rows| <= |batch| + 1
    requires |f.rows| >= BatchSize
    ensures InvFlushes(flushes + [f])
  {
    AppendSizes(flushes, f);
    AppendRetains(flushes, batch, f);
  }

  lemma AppendSizes(flushes: seq<Flush>, f: Flush)
    requires InvFlushes(flushes)
    requires (|flushes| == 0 || LastFlush(flushes).run.ok) && f.run.ok ==> |f.rows| <= BatchSize
    requires |f.rows| >= BatchSize
    ensures forall i :: 0 <= i < |flushes + [f]| ==> |(flushes + [f])[i].rows| >= BatchSize
    ensures AllFlushesOk(flushes + [f]) ==> forall i :: 0 <= i < |flushes + [f]| ==> |(flushes + [f])[i].rows| == BatchSize
  {
    var fs := flushes + [f];
    AppendOne(flushes, f);
    if AllFlushesOk(fs) {
      assert AllFlushesOk(flushes) by {
        forall i | 0 <= i < |flushes| ensures flushes[i].run.ok {
          assert fs[i] == flushes[i];
        }
      }
      if |flushes| > 0 {
        assert LastFlush(flushes) == fs[|flushes| - 1];
      }
    }
  }

  lemma AppendRetains(flushes: seq<Flush>, batch: seq<string>, f: Flush)
    requires RetainsAfterFailure(flushes)
    requires |flushes| > 0 && !LastFlush(flushes).run.ok ==> batch == LastFlush(flushes).rows
    requires batch <= f.rows && |f.rows| <= |batch| + 1
    ensures RetainsAfterFailure(flushes + [f])
  {
    var fs := flushes + [f];
    AppendOne(flushes, f);
    forall i | 0 <= i < |fs| - 1 && !fs[i].run.ok
      ensures fs[i].rows <= fs[i + 1].rows && |fs[i + 1].rows| <= |fs[i].rows| + 1
    {
      if i + 1 < |flushes| {
        assert fs[i] == flushes[i] && fs[i + 1] == flushes[i + 1];
      }
    }
  }

  lemma PresentSnoc(done: seq<Option<string>>, item: Option<string>)
    ensures Present(done + [item]) == Present(done) + (if item.Some? then [item.value] else [])
    ensures Missing(done + [item]) == Missing(done) + (if item.None? then 1 else 0)
  {
    AppendOne(done, item);
  }

  lemma DeliveredSnoc(flushes: seq<Flush>, f: Flush)
    ensures Delivered(flushes + [f]) == Delivered(flushes) + (if f.run.ok then f.rows else [])
    ensures FailedCount(flushes + [f]) == FailedCount(flushes) + (if f.run.ok then 0 else 1)
    ensures LastFlush(flushes + [f]) == f
  {
    AppendOne(flushes, f);
  }

  /** The counting part of the invariant across one iteration. */
  lemma StepCounts(st: State, done: seq<Option<string>>, item: Option<string>, query: string, ok: nat -> bool)
    requires InvCounts(st, done)
    ensures InvCounts(Step(st, item, query, ok), done + [item])
  {
    PresentSnoc(done, item);
    match item
    case None =>
    case Some(line) =>
      var b := st.batch + [line];
      if |b| >= BatchSize {
        StepFlushCounts(st, done, line, FlushBatch(query, b, ok, st.next));
      }
  }

  /** The counting part of the invariant across a flush of the batch plus
      one line: a success moves the lines from the batch to the table, a
      failure leaves them in the batch and counts one error. */
  lemma StepFlushCounts(st: State, done: seq<Option<string>>, line: string, f: Flush)
    requires InvCounts(st, done)
    requires f.rows == st.batch + [line]
    ensures f.run.ok ==> InvCounts(st.(flushes := st.flushes + [f], batch := []), done + [Some(line)])
    ensures !f.run.ok ==>
      InvCounts(st.(flushes := st.flushes + [f], batch := f.rows, errors := st.errors + 1), done + [Some(line)])
  {
    PresentSnoc(done, Some(line));
    DeliveredSnoc(st.flushes, f);
    assert Present(done + [Some(line)]) == Delivered(st.flushes) + f.rows;
    if f.run.ok {
      assert Delivered(st.flushes + [f]) + [] == Delivered(st.flushes) + f.rows;
    }
  }

  /** Appending a flush of the batch plus one line keeps the in-loop growth
      after a failure. */
  lemma AppendGrows(flushes: seq<Flush>, batch: seq<string>, f: Flush)
    requires GrowsAfterFailure(flushes)
    requires |flushes| > 0 && !LastFlush(flushes).run.ok ==> batch == LastFlush(flushes).rows
    requires batch <= f.rows && |f.rows| == |batch| + 1
    ensures GrowsAfterFailure(flushes + [f])
  {
    var fs := flushes + [f];
    AppendOne(flushes, f);
    forall i | 0 <= i < |fs| - 1 && !fs[i].run.ok
      ensures fs[i].rows <= fs[i + 1].rows && |fs[i + 1].rows| == |fs[i].rows| + 1
    {
      if i + 1 < |flushes| {
        assert fs[i] == flushes[i] && fs[i + 1] == flushes[i + 1];
      }
    }
  }

  /** One iteration keeps the in-loop growth after a failure. */
  lemma StepGrows(st: State, item: Option<string>, query: string, ok: nat -> bool)
    requires InvBatch(st) && GrowsAfterFailure(st.flushes)
    ensures GrowsAfterFailure(Step(st, item, query, ok).flushes)
  {
    match item
    case None =>
    case Some(line) =>
      var b := st.batch + [line];
      if |b| >= BatchSize {
        AppendGrows(st.flushes, st.batch, FlushBatch(query, b, ok, st.next));
      }
  }

  /** The shape of the batch and of the flush list across one iteration. */
  lemma StepShape(st: State, item: Option<string>, query: string, ok: nat -> bool)
    requires InvBatch(st) && InvFlushes(st.flushes)
    ensures InvBatch(Step(st, item, query, ok)) && InvFlushes(Step(st, item, query, ok).flushes)
  {
    match item
    case None =>
    case Some(line) =>
      var b := st.batch + [line];
      if |b| >= BatchSize {
        StepFlushShape(st, line, FlushBatch(query, b, ok, st.next));
      }
  }

  /** A full batch was flushed, with outcome `f`. */
  lemma StepFlushShape(st: State, line: string, f: Flush)
    requires InvBatch(st) && InvFlushes(st.flushes)
    requires f.rows == st.batch + [line] && |f.rows| >= BatchSize
    ensures var fs := st.flushes + [f];
      && (f.run.ok ==> InvBatch(st.(flushes := fs, batch := [])))
      && (!f.run.ok ==> InvBatch(st.(flushes := fs, batch := f.rows)))
      && InvFlushes(fs)
  {
    DeliveredSnoc(st.flushes, f);
    AppendFlush(st.flushes, st.batch, f);
  }

  /** The counts are in order after every prefix of the rows. */
  lemma {:induction false} LoopCounts(items: seq<Option<string>>, query: string, ok: nat -> bool, next: nat)
    ensures InvCounts(Loop(State([], 0, [], next), items, query, ok), items)
    decreases |items|
  {
    if |items| == 0 {
      assert Delivered([]) + [] == Present([]);
    } else {
      var init := items[..|items| - 1];
      LoopCounts(init, query, ok, next);
      StepCounts(Loop(State([], 0, [], next), init, query, ok), init, items[|items| - 1], query, ok);
      assert init + [items[|items| - 1]] == items;
    }
  }

  /** The batch and the flush list keep their shape after every prefix. */
  lemma {:induction false} LoopShape(items: seq<Option<string>>, query: string, ok: nat -> bool, next: nat)
    ensures var st := Loop(State([], 0, [], next), items, query, ok);
      InvBatch(st) && InvFlushes(st.flushes) && GrowsAfterFailure(st.flushes)
    decreases |items|
  {
    if |items| > 0 {
      var init := items[..|items| - 1];
      var st := Loop(State([], 0, [], next), init, query, ok);
      LoopShape(init, query, ok, next);
      StepShape(st, items[|items| - 1], query, ok);
      StepGrows(st, items[|items| - 1], query, ok);
    }
  }

  /** The loop keeps the whole invariant. */
  lemma LoopInv(items: seq<Option<string>>, query: string, ok: nat -> bool, next: nat)
    ensures Inv(Loop(State([], 0, [], next), items, query, ok), items)
  {
    LoopCounts(items, query, ok, next);
    LoopShape(items, query, ok, next);
  }

  /** Every flush sent its own lines with `query`. */
  predicate AllSent(flushes: seq<Flush>, query: string)
  {
    forall i :: 0 <= i < |flushes| ==> SentAs(flushes[i], query)
  }

  lemma StepSent(st: State, item: Option<string>, query: string, ok: nat -> bool)
    requires AllSent(st.flushes, query)
    ensures AllSent(Step(st, item, query, ok).flushes, query)
  {
    match item
    case None =>
    case Some(line) =>
      var b := st.batch + [line];
      if |b| >= BatchSize {
        AppendOne(st.flushes, FlushBatch(query, b, ok, st.next));
      }
  }

  lemma {:induction false} LoopSent(items: seq<Option<string>>, query: string, ok: nat -> bool, next: nat)
    ensures AllSent(Loop(State([], 0, [], next), items, query, ok).flushes, query)
    decreases |items|
  {
    if |items| > 0 {
      var init := items[..|items| - 1];
      LoopSent(init, query, ok, next);
      StepSent(Loop(State([], 0, [], next), init, query, ok), items[|items| - 1], query, ok);
    }
  }

  /** The final flush, on any state whose counts are in order. */
  lemma FinishConservation(st: State, items: seq<Option<string>>, query: string, ok: nat -> bool)
    requires InvCounts(st, items)
    ensures var l := Finish(st, query, ok);
      && (!l.failed ==> Delivered(l.flushes) == Present(items))
      && (!l.failed ==> l.errors == Missing(items) + FailedCount(l.flushes))
      && (l.failed ==> |l.flushes| > 0)
      && (l.failed ==> Delivered(l.flushes) + LastFlush(l.flushes).rows == Present(items))
      && (l.failed ==> !LastFlush(l.flushes).run.ok)
  {
    if |st.batch| == 0 {
      assert Delivered(st.flushes) + st.batch == Delivered(st.flushes);
    } else {
      DeliveredSnoc(st.flushes, FlushBatch(query, st.batch, ok, st.next));
    }
  }

  /** Every serialised line is acknowledged once: a load that completes has
      had exactly the serialised lines acknowledged, in source order,
      whatever flushes failed on the way; a load whose final flush failed
      has had a prefix of them acknowledged, the rest being that flush's
      lines.  The
      error counter is the serialisation failures plus the failed in-loop
      flushes. */
  lemma IngestConservation(items: seq<Option<string>>, query: string, ok: nat -> bool, next: nat)
    ensures var l := Ingest(items, query, ok, next);
      && (!l.failed ==> Delivered(l.flushes) == Present(items))
      && (!l.failed ==> l.errors == Missing(items) + FailedCount(l.flushes))
      && (l.failed ==> |l.flushes| > 0)
      && (l.failed ==> Delivered(l.flushes) + LastFlush(l.flushes).rows == Present(items))
      && (l.failed ==> !LastFlush(l.flushes).run.ok)
  {
    LoopInv(items, query, ok, next);
    FinishConservation(Loop(State([], 0, [], next), items, query, ok), items, query, ok);
  }

  /** A load fails only through its final flush, and only after that flush
      used every attempt. */
  lemma IngestFailureExhaustsRetries(items: seq<Option<string>>, query: string, ok: nat -> bool, next: nat)
    ensures var l := Ingest(items, query, ok, next);
      l.failed ==> |l.flushes| > 0 && |LastFlush(l.flushes).run.attempts| == MaxRetries
  {
    var st := Loop(State([], 0, [], next), items, query, ok);
    if |st.batch| > 0 {
      DeliveredSnoc(st.flushes, FlushBatch(query, st.batch, ok, st.next));
    }
  }

  /** The final flush keeps the shape of the flush list. */
  lemma FinishRetains(st: State, query: string, ok: nat -> bool)
    requires InvBatch(st) && InvFlushes(st.flushes)
    requires AllSent(st.flushes, query)
    ensures var l := Finish(st, query, ok);
      && RetainsAfterFailure(l.flushes)
      && (!l.failed && |l.flushes| > 0 ==> LastFlush(l.flushes).run.ok)
      && (forall i :: 0 <= i < |l.flushes| - 1 ==> |l.flushes[i].rows| >= BatchSize)
      && (forall i :: 0 <= i < |l.flushes| ==> |l.flushes[i].rows| > 0 && SentAs(l.flushes[i], query))
  {
    if |st.batch| > 0 {
      var f := FlushBatch(query, st.batch, ok, st.next);
      var fs := st.flushes + [f];
      AppendOne(st.flushes, f);
      AppendRetains(st.flushes, st.batch, f);
      forall i | 0 <= i < |fs| ensures |fs[i].rows| > 0 && SentAs(fs[i], query) {
        if i < |st.flushes| { assert fs[i] == st.flushes[i]; }
      }
    }
  }

  /** Every flush of a completed load that failed was followed by a flush of
      the same lines (plus at most one more), and the last flush of a
      completed load succeeded: in-loop failures do not stop the load.
      Every flush sent its own lines, each attempt once. */
  lemma IngestRetainsFailedBatches(items: seq<Option<string>>, query: string, ok: nat -> bool, next: nat)
    ensures var l := Ingest(items, query, ok, next);
      && RetainsAfterFailure(l.flushes)
      && (!l.failed && |l.flushes| > 0 ==> LastFlush(l.flushes).run.ok)
      && (forall i :: 0 <= i < |l.flushes| - 1 ==> |l.flushes[i].rows| >= BatchSize)
      && (forall i :: 0 <= i < |l.flushes| ==> |l.flushes[i].rows| > 0 && SentAs(l.flushes[i], query))
  {
    LoopInv(items, query, ok, next);
    LoopSent(items, query, ok, next);
    FinishRetains(Loop(State([], 0, [], next), items, query, ok), query, ok);
  }

  // ----- Chunking -----

  /** The reference cut of `s` into consecutive pieces of `n`, the last
      piece possibly shorter. */
  function Chunks<T>(s: seq<T>, n: nat): seq<seq<T>>
    requires n > 0
    decreases |s|
  {
    if |s| == 0 then []
    else if |s| <= n then [s]
    else [s[..n]] + Chunks(s[n..], n)
  }

  /** ceil(|s| / n) pieces: n times the count reaches |s|, and one piece
      fewer would not. */
  lemma {:induction false} ChunksCount<T>(s: seq<T>, n: nat)
    requires n > 0
    ensures (|Chunks(s, n)| - 1) * n < |s| <= |Chunks(s, n)| * n
    decreases |s|
  {
    if |s| > n {
      ChunksCount(s[n..], n);
      var k := |Chunks(s[n..], n)|;
      assert |Chunks(s, n)| == k + 1;
      assert (k + 1) * n == k * n + n;
    }
  }

  /** All pieces but the last have n elements, the last has 1..n, and
      together they are exactly `s`. */
  lemma {:induction false} ChunksShape<T>(s: seq<T>, n: nat)
    requires n > 0
    ensures forall i :: 0 <= i < |Chunks(s, n)| - 1 ==> |Chunks(s, n)[i]| == n
    ensures |Chunks(s, n)| > 0 ==> 1 <= |Chunks(s, n)[|Chunks(s, n)| - 1]| <= n
    ensures Flatten(Chunks(s, n)) == s
    decreases |s|
  {
    if |s| == 0 {
    } else if |s| <= n {
      assert Flatten([s]) == s + Flatten([s][1..]);
    } else {
      ChunksShape(s[n..], n);
      var c := Chunks(s, n);
      var rest := Chunks(s[n..], n);
      assert c == [s[..n]] + rest;
      assert c[1..] == rest;
      assert forall i :: 1 <= i < |c| ==> c[i] == rest[i - 1];
      assert s[..n] + s[n..] == s;
    }
  }

  /** The lines of a list of flushes, flattened front to back. */
  function RowsOf(flushes: seq<Flush>): (r: seq<seq<string>>)
    ensures |r| == |flushes|
    ensures forall i :: 0 <= i < |flushes| ==> r[i] == flushes[i].rows
  {
    seq(|flushes|, i requires 0 <= i < |flushes| => flushes[i].rows)
  }

  lemma {:induction false} DeliveredAllOk(flushes: seq<Flush>)
    requires AllFlushesOk(flushes)
    ensures Delivered(flushes) == Flatten(RowsOf(flushes))
    decreases |flushes|
  {
    if |flushes| > 0 {
      var init := flushes[..|flushes| - 1];
      DeliveredAllOk(init);
      assert RowsOf(flushes) == RowsOf(init) + [flushes[|flushes| - 1].rows];
      FlattenAppend(RowsOf(init), [flushes[|flushes| - 1].rows]);
      assert Flatten([flushes[|flushes| - 1].rows]) == flushes[|flushes| - 1].rows + Flatten([flushes[|flushes| - 1].rows][1..]);
    }
  }

  /** A full piece in front is cut off as the first chunk. */
  lemma ChunksStep<T>(x: seq<T>, rest: seq<T>, n: nat)
    requires n > 0 && |x| == n
    ensures Chunks(x + rest, n) == [x] + Chunks(rest, n)
  {
    if |rest| == 0 {
      assert x + rest == x;
    } else {
      assert (x + rest)[..n] == x;
      assert (x + rest)[n..] == rest;
    }
  }

  /** Cutting full pieces followed by a tail gives those pieces, then the
      cut of the tail. */
  lemma {:induction false} ChunksOfFullPieces<T>(xs: seq<seq<T>>, tail: seq<T>, n: nat)
    requires n > 0
    requires forall i :: 0 <= i < |xs| ==> |xs[i]| == n
    ensures Chunks(Flatten(xs) + tail, n) == xs + Chunks(tail, n)
    decreases |xs|
  {
    if |xs| == 0 {
      assert Flatten(xs) + tail == tail;
    } else {
      ChunksOfFullPieces(xs[1..], tail, n);
      assert Flatten(xs) + tail == xs[0] + (Flatten(xs[1..]) + tail);
      ChunksStep(xs[0], Flatten(xs[1..]) + tail, n);
      assert xs == [xs[0]] + xs[1..];
    }
  }

  /** The final flush of a state reached with every flush successful
      completes the reference chunking. */
  lemma FinishChunking(st: State, items: seq<Option<string>>, query: string, ok: nat -> bool)
    requires Inv(st, items)
    requires AllFlushesOk(Finish(st, query, ok).flushes)
    ensures RowsOf(Finish(st, query, ok).flushes) == Chunks(Present(items), BatchSize)
  {
    var l := Finish(st, query, ok);
    FinishRows(st, query, ok);
    assert AllFlushesOk(st.flushes) by {
      forall i | 0 <= i < |st.flushes| ensures st.flushes[i].run.ok {
        assert l.flushes[i] == st.flushes[i];
      }
    }
    LoopChunks(st, items);
    if |st.batch| > 0 {
      assert |st.flushes| == 0 || LastFlush(st.flushes).run.ok;
      assert Chunks(st.batch, BatchSize) == [st.batch];
    }
  }

  /** The final flush adds the remaining batch, if any, after the others. */
  lemma FinishRows(st: State, query: string, ok: nat -> bool)
    ensures var l := Finish(st, query, ok);
      && |st.flushes| <= |l.flushes|
      && l.flushes[..|st.flushes|] == st.flushes
      && RowsOf(l.flushes) == RowsOf(st.flushes) + (if |st.batch| == 0 then [] else [st.batch])
  {
    var l := Finish(st, query, ok);
    if |st.batch| == 0 {
      assert RowsOf(st.flushes) + [] == RowsOf(st.flushes);
    } else {
      AppendOne(st.flushes, l.flushes[|st.flushes|]);
      assert RowsOf(l.flushes) == RowsOf(st.flushes) + [st.batch];
    }
  }



  /** With every flush so far successful, the flushes are full chunks and
      the batch is what is left to cut. */
  lemma LoopChunks(st: State, items: seq<Option<string>>)
    requires Inv(st, items) && AllFlushesOk(st.flushes)
    ensures Chunks(Present(items), BatchSize) == RowsOf(st.flushes) + Chunks(st.batch, BatchSize)
  {
    DeliveredAllOk(st.flushes);
    ChunksOfFullPieces(RowsOf(st.flushes), st.batch, BatchSize);
  }



  /** When every flush succeeds, the flushes are the reference chunking of
      the serialised lines: in source order, all of BATCH_SIZE lines but the
      last, which has 1..BATCH_SIZE. */
  lemma IngestChunking(items: seq<Option<string>>, query: string, ok: nat -> bool, next: nat)
    requires AllFlushesOk(Ingest(items, query, ok, next).flushes)
    ensures RowsOf(Ingest(items, query, ok, next).flushes) == Chunks(Present(items), BatchSize)
  {
    LoopInv(items, query, ok, next);
    FinishChunking(Loop(State([], 0, [], next), items, query, ok), items, query, ok);
  }

  /** With every flush successful there are ceil(N / BATCH_SIZE) flushes for
      N serialised lines. */
  lemma IngestFlushCount(items: seq<Option<string>>, query: string, ok: nat -> bool, next: nat)
    requires AllFlushesOk(Ingest(items, query, ok, next).flushes)
    ensures |Ingest(items, query, ok, next).flushes| == (|Present(items)| + BatchSize - 1) / BatchSize
  {
    IngestChunking(items, query, ok, next);
    ChunksCount(Present(items), BatchSize);
    CeilFromBounds(|Present(items)|, |Chunks(Present(items), BatchSize)|);
  }

  lemma CeilFromBounds(len: nat, k: nat)
    requires (k - 1) * BatchSize < len <= k * BatchSize
    ensures k == (len + BatchSize - 1) / BatchSize
  {
  }
}

=== FILE: client.dfy ===
/** `ClickHouseClient`: choosing a reader and a loader by file extension,
    creating the table from the inferred schema, and loading the rows.

    Parsing is not modelled: a file is given as what the CSV parser and the
    JSON binder would make of it (`FileView`), and JSON serialisation of one
    record is a parameter that may fail.  Statement outcomes come from the
    oracle described in module Retry. */
module ClickHouseClient {
  import opened Wrappers
  import opened Text
  import opened Schema
  import opened Retry
  import opened Batching
  import CsvSchemaReader
  import JsonSchemaReader
  import Ddl
  import CsvRow
  import JavaInt
  import DatePattern

  datatype FileKind = CsvFile | JsonFile

  /** The extension test of `inferSchema` and `loadFileData`: ".csv" first,
      then ".json", on the lower-cased path. */
  function KindOf(path: string): (k: Option<FileKind>)
    ensures k == Some(CsvFile) <==> EndsWith(Lower(path), ".csv")
    ensures k == Some(JsonFile) <==> !EndsWith(Lower(path), ".csv") && EndsWith(Lower(path), ".json")
  {
    if EndsWith(Lower(path), ".csv") then Some(CsvFile)
    else if EndsWith(Lower(path), ".json") then Some(JsonFile)
    else None
  }

  lemma {:induction false} LowerIdempotent(s: string)
    ensures Lower(Lower(s)) == Lower(s)
  {
    forall i | 0 <= i < |s| ensures Lower(Lower(s))[i] == Lower(s)[i] {
      var c := s[i];
      if IsUpper(c) {
        assert !IsUpper(LowerChar(c));
      }
    }
  }

  /** The test ignores letter case: a path and its lower-cased form are
      dispatched alike, so "DATA.CSV" is a CSV file. */
  lemma KindIgnoresCase(path: string)
    ensures KindOf(Lower(path)) == KindOf(path)
  {
    LowerIdempotent(path);
  }

  lemma KindExamples()
    ensures KindOf("DATA.CSV") == Some(CsvFile)
    ensures KindOf("a.json") == Some(JsonFile)
    ensures KindOf("a.csv.json") == Some(JsonFile)
    ensures KindOf("a.txt") == None
  {
    assert Lower("DATA.CSV")[4..] == ".csv";
    assert Lower("a.json")[1..] == ".json";
    assert Lower("a.csv.json")[5..] == ".json";
    assert Lower("a.csv.json")[6] == 'j';
    assert Lower("a.txt")[1..] != ".json";
    assert Lower("a.txt")[1..] == ".txt";
  }

  /** The two readers agree on text: a JSON string is typed as a CSV column
      holding just that value would be, except for integer literals, which
      the CSV reader types "UInt32" and the JSON reader, seeing a string,
      types "String". */
  lemma JsonStringTypedLikeCsvValue(s: string)
    ensures !JavaInt.IsJavaInt(s) ==>
      JsonSchemaReader.InferType(JsonSchemaReader.JString(s), []) == CsvSchemaReader.TypeOfValues({s})
    ensures JavaInt.IsJavaInt(s) ==>
      && JsonSchemaReader.InferType(JsonSchemaReader.JString(s), []) == StringType
      && CsvSchemaReader.TypeOfValues({s}) == UInt32
  {
    if DatePattern.MatchesDate(s) {
      DatePattern.DateIsNeverInt(s);
    }
  }

  /** A file as the two parsers would read it: the CSV records (header
      first) and the list of JSON objects. */
  datatype FileView = FileView(csv: seq<CsvSchemaReader.Row>, json: seq<JsonSchemaReader.Record>)

  /** `inferSchema(filePath)` */
  function InferSchema(path: string, view: FileView): (r: Result<seq<Column>>)
    ensures KindOf(path).None? <==> r == Err(UnsupportedFormat(path))
    ensures KindOf(path) == Some(CsvFile) ==> r == CsvSchemaReader.InferSchema(view.csv)
    ensures KindOf(path) == Some(JsonFile) ==> r == JsonSchemaReader.InferSchema(view.json)
    ensures r.Ok? ==> WellNamed(r.value)
  {
    match KindOf(path)
    case Some(CsvFile) => CsvSchemaReader.InferSchema(view.csv)
    case Some(JsonFile) => JsonSchemaReader.InferSchema(view.json)
    case None => Err(UnsupportedFormat(path))
  }

  /** What `createTableFromFile` did: the attempts it made and how it ended. */
  datatype Creation = Creation(attempts: seq<Attempt>, result: Result<()>)

  /** `createTableFromFile(filePath, tableName)`: infer, build the CREATE
      text (failing on an empty schema before any statement is sent), then
      up to MAX_RETRIES attempts of DROP followed by CREATE. */
  function CreateTableFromFile(path: string, table: string, view: FileView, ok: nat -> bool, next: nat): (c: Creation)
    ensures InferSchema(path, view).Err? ==> c == Creation([], Err(InferSchema(path, view).error))
    ensures InferSchema(path, view) == Ok([]) ==> c == Creation([], Err(EmptySchema))
    ensures c.result.Ok? ==>
      && InferSchema(path, view).Ok? && |InferSchema(path, view).value| > 0
      && |c.attempts| > 0 && AllOk(c.attempts[|c.attempts| - 1])
    ensures c.result == Err(TableCreationFailed) ==> |c.attempts| == MaxRetries
    ensures |c.attempts| <= MaxRetries
  {
    match InferSchema(path, view)
    case Err(e) => Creation([], Err(e))
    case Ok(schema) =>
      match Ddl.CreateTable(table, schema)
      case Err(e) => Creation([], Err(e))
      case Ok(create) =>
        var run := WithRetry([Ddl.DropTable(table), create], ok, next);
        Creation(run.attempts, if run.ok then Ok(()) else Err(TableCreationFailed))
  }

  /** Every creation attempt starts with the DROP; the CREATE it sends is
      the statement built from the inferred schema, and it is sent only
      after the DROP of the same attempt succeeded.  The creation succeeds
      exactly when the last attempt ran both. */
  lemma CreationAttemptsDropThenCreate(path: string, table: string, view: FileView, ok: nat -> bool, next: nat)
    requires InferSchema(path, view).Ok? && |InferSchema(path, view).value| > 0
    ensures var c := CreateTableFromFile(path, table, view, ok, next);
      var create := Ddl.CreateTable(table, InferSchema(path, view).value).value;
      && 1 <= |c.attempts| <= MaxRetries
      && (forall i :: 0 <= i < |c.attempts| ==> c.attempts[i][0].sql == Ddl.DropTable(table))
      && (forall i :: 0 <= i < |c.attempts| && |c.attempts[i]| == 2 ==>
            c.attempts[i][0].ok && c.attempts[i][1].sql == create)
      && (c.result.Ok? <==> |c.attempts[|c.attempts| - 1]| == 2 && AllOk(c.attempts[|c.attempts| - 1]))
      && (c.result.Err? ==> c.result.error == TableCreationFailed && |c.attempts| == MaxRetries)
  {
    var create := Ddl.CreateTable(table, InferSchema(path, view).value).value;
    TwoStatementRetry(Ddl.DropTable(table), create, ok, next);
  }

  const CsvFormat: string := " FORMAT CSV"
  const JsonFormat: string := " FORMAT JSONEachRow"

  function InsertQuery(table: string, format: string): string
  {
    "INSERT INTO " + table + format
  }

  /** The data records of a CSV file, each written back out; the header is
      skipped, and an empty file has no data records. */
  function CsvItems(records: seq<CsvSchemaReader.Row>): (items: seq<Option<string>>)
    ensures |items| == if |records| == 0 then 0 else |records| - 1
    ensures forall k :: 0 <= k < |items| ==> items[k] == Some(CsvRow.SerializeRow(records[k + 1]))
  {
    if |records| == 0 then []
    else seq(|records| - 1, k requires 0 <= k < |records| - 1 => Some(CsvRow.SerializeRow(records[k + 1])))
  }

  /** `loadCsvData(filePath, tableName)` */
  function LoadCsv(table: string, records: seq<CsvSchemaReader.Row>, ok: nat -> bool, next: nat): Load
  {
    Ingest(CsvItems(records), InsertQuery(table, CsvFormat), ok, next)
  }

  /** The records of a JSON file, each serialised on its own line; a record
      that fails to serialise yields no line. */
  function JsonItems(records: seq<JsonSchemaReader.Record>,
                     serialize: JsonSchemaReader.Record -> Option<string>): (items: seq<Option<string>>)
    ensures |items| == |records|
    ensures forall k :: 0 <= k < |items| ==> items[k] == serialize(records[k])
  {
    seq(|records|, k requires 0 <= k < |records| => serialize(records[k]))
  }

  /** `loadJsonData(filePath, tableName)`: a record that fails to serialise
      is counted and skipped. */
  function LoadJson(table: string, records: seq<JsonSchemaReader.Record>,
                    serialize: JsonSchemaReader.Record -> Option<string>, ok: nat -> bool, next: nat): Load
  {
    Ingest(JsonItems(records, serialize), InsertQuery(table, JsonFormat), ok, next)
  }

  /** The rows and the insert query of the loader chosen for `kind`. */
  function ItemsOf(kind: FileKind, view: FileView, serialize: JsonSchemaReader.Record -> Option<string>): seq<Option<string>>
  {
    match kind
    case CsvFile => CsvItems(view.csv)
    case JsonFile => JsonItems(view.json, serialize)
  }

  /** The `INSERT … FORMAT …` statement of the loader chosen for `kind`. */
  function QueryOf(kind: FileKind, table: string): string
  {
    match kind
    case CsvFile => InsertQuery(table, CsvFormat)
    case JsonFile => InsertQuery(table, JsonFormat)
  }

  /** What the loader chosen for `kind` does, before its outcome is turned
      into a return or an exception. */
  function LoadOfKind(kind: FileKind, table: string, view: FileView,
                      serialize: JsonSchemaReader.Record -> Option<string>, ok: nat -> bool, next: nat): Load
  {
    Ingest(ItemsOf(kind, view, serialize), QueryOf(kind, table), ok, next)
  }

  /** `loadFileData(filePath, tableName)`: the same extension test as
      `inferSchema`; the exception of a failed final flush leaves the
      loader as `BatchInsertFailed`. */
  function LoadFileData(path: string, table: string, view: FileView,
                        serialize: JsonSchemaReader.Record -> Option<string>, ok: nat -> bool, next: nat): (r: Result<Load>)
    ensures KindOf(path).None? <==> r == Err(UnsupportedFormat(path))
    ensures r.Err? ==> r.error == UnsupportedFormat(path) || r.error == BatchInsertFailed
    ensures r.Ok? ==> !r.value.failed
  {
    match KindOf(path)
    case None => Err(UnsupportedFormat(path))
    case Some(kind) =>
      var l := LoadOfKind(kind, table, view, serialize, ok, next);
      if l.failed then Err(BatchInsertFailed) else Ok(l)
  }

  /** Inference and loading reject exactly the same paths, and a path they
      accept is read as the same kind of file by both. */
  lemma SameDispatch(path: string, table: string, view: FileView,
                     serialize: JsonSchemaReader.Record -> Option<string>, ok: nat -> bool, next: nat)
    ensures InferSchema(path, view) == Err(UnsupportedFormat(path)) <==>
            LoadFileData(path, table, view, serialize, ok, next) == Err(UnsupportedFormat(path))
    ensures KindOf(path) == Some(CsvFile) ==>
      && InferSchema(path, view) == CsvSchemaReader.InferSchema(view.csv)
      && LoadOfKind(CsvFile, table, view, serialize, ok, next) == LoadCsv(table, view.csv, ok, next)
    ensures KindOf(path) == Some(JsonFile) ==>
      && InferSchema(path, view) == JsonSchemaReader.InferSchema(view.json)
      && LoadOfKind(JsonFile, table, view, serialize, ok, next) == LoadJson(table, view.json, serialize, ok, next)
  {
  }

  /** Loading raises `BatchInsertFailed` exactly when the flush after the
      row loop used all its attempts and failed; the lines acknowledged
      before it, followed by its own lines, are then all the serialised
      lines.  Failed flushes inside the loop never raise. */
  lemma BatchInsertFailedOnlyOnFinalFlush(path: string, table: string, view: FileView,
                                          serialize: JsonSchemaReader.Record -> Option<string>, ok: nat -> bool, next: nat)
    requires KindOf(path).Some?
    ensures var kind := KindOf(path).value;
      var l := LoadOfKind(kind, table, view, serialize, ok, next);
      && (LoadFileData(path, table, view, serialize, ok, next) == Err(BatchInsertFailed) <==> l.failed)
      && (l.failed ==>
            && |l.flushes| > 0
            && !LastFlush(l.flushes).run.ok
            && |LastFlush(l.flushes).run.attempts| == MaxRetries
            && Delivered(l.flushes) + LastFlush(l.flushes).rows == Present(ItemsOf(kind, view, serialize)))
      && (!l.failed ==> LoadFileData(path, table, view, serialize, ok, next) == Ok(l))
  {
    var kind := KindOf(path).value;
    var items := ItemsOf(kind, view, serialize);
    IngestConservation(items, QueryOf(kind, table), ok, next);
    IngestFailureExhaustsRetries(items, QueryOf(kind, table), ok, next);
  }

  lemma {:induction false} PresentAllSome(items: seq<Option<string>>)
    requires forall k :: 0 <= k < |items| ==> items[k].Some?
    ensures |Present(items)| == |items| && Missing(items) == 0
    ensures forall k :: 0 <= k < |items| ==> Present(items)[k] == items[k].value
    decreases |items|
  {
    if |items| > 0 {
      PresentAllSome(items[..|items| - 1]);
    }
  }

  /** A CSV load that completes has one line per data record acknowledged, in file
      order, and un-quoting line k gives back record k's fields; its error
      counter counts failed in-loop flushes only, since writing a record out
      cannot fail. */
  lemma CsvLoadDeliversRecords(table: string, records: seq<CsvSchemaReader.Row>, ok: nat -> bool, next: nat)
    requires |records| > 0
    requires forall k :: 1 <= k < |records| ==> |records[k]| > 0
    requires !LoadCsv(table, records, ok, next).failed
    ensures var l := LoadCsv(table, records, ok, next);
      && |Delivered(l.flushes)| == |records| - 1
      && (forall k :: 0 <= k < |records| - 1 ==> CsvRow.ParseRecord(Delivered(l.flushes)[k]) == Some(records[k + 1]))
      && l.errors == FailedCount(l.flushes)
  {
    var items := CsvItems(records);
    PresentAllSome(items);
    IngestConservation(items, InsertQuery(table, CsvFormat), ok, next);
    forall k | 0 <= k < |records| - 1
      ensures CsvRow.ParseRecord(Present(items)[k]) == Some(records[k + 1])
    {
      CsvRow.SerializeRowRoundTrip(records[k + 1]);
    }
  }

  /** A CSV file with no header loads nothing and raises nothing, although
      inferring its schema raises. */
  lemma EmptyCsvLoadsNothing(path: string, table: string, view: FileView,
                             serialize: JsonSchemaReader.Record -> Option<string>, ok: nat -> bool, next: nat)
    requires KindOf(path) == Some(CsvFile) && view.csv == []
    ensures InferSchema(path, view) == Err(CsvNoHeader)
    ensures LoadFileData(path, table, view, serialize, ok, next) == Ok(Load([], 0, false))
  {
    assert Loop(State([], 0, [], next), [], InsertQuery(table, CsvFormat), ok) == State([], 0, [], next);
  }
}

=== FILE: csv_row.dfy ===
/** How `loadCsvData` writes a parsed record back out for the server: every
    field quoted, inner quotes doubled, fields separated by commas.  A
    reader in the style of the record grammar of section 2 of RFC 4180 is
    given as a parser, and the writer is proved to be its right inverse.
    The reader is more permissive than the RFC: its TEXTDATA is every
    character other than a quote, a comma, CR and LF. */
module CsvRow {
  import opened Wrappers
  import opened Text

  /** `field.replace("\"", "\"\"")` */
  function Escape(f: string): (r: string)
    ensures |r| >= |f|
    decreases |f|
  {
    if |f| == 0 then ""
    else if f[0] == '"' then "\"\"" + Escape(f[1..])
    else [f[0]] + Escape(f[1..])
  }

  /** One field as written: quote, escaped text, quote. */
  function Quote(f: string): (r: string)
    ensures |r| >= |f| + 2
    ensures r[0] == '"' && r[|r| - 1] == '"'
  {
    "\"" + Escape(f) + "\""
  }

  /** A record as written: its quoted fields joined by ",". */
  function SerializeRow(fields: seq<string>): string
  {
    Join(seq(|fields|, i requires 0 <= i < |fields| => Quote(fields[i])), ",")
  }

  /** Body of an escaped field, read after its opening quote: `""` stands for
      one quote and a lone quote closes the field.  Returns the field's text
      and what follows the closing quote. */
  function ParseQuotedBody(s: string): (r: Option<(string, string)>)
    ensures r.Some? ==> |r.value.1| < |s|
    decreases |s|
  {
    if |s| == 0 then None
    else if s[0] == '"' then
      if |s| > 1 && s[1] == '"' then
        match ParseQuotedBody(s[2..])
        case None => None
        case Some((v, rest)) => Some(("\"" + v, rest))
      else Some(("", s[1..]))
    else
      match ParseQuotedBody(s[1..])
      case None => None
      case Some((v, rest)) => Some(([s[0]] + v, rest))
  }

  /** The reader's TEXTDATA: every character other than a quote, a comma,
      CR and LF.  Wider than the printable ASCII range of RFC 4180, so tabs,
      DEL and non-ASCII characters are accepted unquoted. */
  predicate IsTextData(c: char) { c != '"' && c != ',' && c != '\r' && c != '\n' }

  /** A non-escaped field: the longest run of TEXTDATA. */
  function ParsePlain(s: string): (r: (string, string))
    ensures |r.1| <= |s|
    decreases |s|
  {
    if |s| == 0 || !IsTextData(s[0]) then ("", s)
    else
      var (v, rest) := ParsePlain(s[1..]);
      ([s[0]] + v, rest)
  }

  /** `field = escaped / non-escaped` */
  function ParseField(s: string): (r: Option<(string, string)>)
    ensures r.Some? ==> |r.value.1| <= |s|
  {
    if |s| > 0 && s[0] == '"' then ParseQuotedBody(s[1..]) else Some(ParsePlain(s))
  }

  /** `record = field *(COMMA field)`, covering the whole text. */
  function ParseRecord(s: string): Option<seq<string>>
    decreases |s|
  {
    match ParseField(s)
    case None => None
    case Some((v, rest)) =>
      if |rest| == 0 then Some([v])
      else if rest[0] != ',' then None
      else
        match ParseRecord(rest[1..])
        case None => None
        case Some(vs) => Some([v] + vs)
  }

  lemma {:induction false} QuotedBodyRoundTrip(f: string, rest: string)
    requires |rest| == 0 || rest[0] != '"'
    ensures ParseQuotedBody(Escape(f) + "\"" + rest) == Some((f, rest))
    decreases |f|
  {
    var s := Escape(f) + "\"" + rest;
    if |f| == 0 {
      assert s == "\"" + rest;
      assert s[1..] == rest;
    } else if f[0] == '"' {
      var tail := Escape(f[1..]) + "\"" + rest;
      assert s == "\"\"" + tail;
      assert s[0] == '"' && s[1] == '"' && s[2..] == tail;
      QuotedBodyRoundTrip(f[1..], rest);
      assert "\"" + f[1..] == f;
    } else {
      var tail := Escape(f[1..]) + "\"" + rest;
      assert s == [f[0]] + tail;
      assert s[0] == f[0] && s[1..] == tail;
      QuotedBodyRoundTrip(f[1..], rest);
      assert [f[0]] + f[1..] == f;
    }
  }

  /** A quoted field is read back as a field, up to the text that follows. */
  lemma QuoteRoundTrip(f: string, rest: string)
    requires |rest| == 0 || rest[0] != '"'
    ensures ParseField(Quote(f) + rest) == Some((f, rest))
  {
    QuotedBodyRoundTrip(f, rest);
    assert (Quote(f) + rest)[1..] == Escape(f) + "\"" + rest;
  }

  /** A written record of two or more fields is the first quoted field, a
      comma, and the rest written out. */
  lemma SerializeRowCons(fields: seq<string>)
    requires |fields| > 1
    ensures SerializeRow(fields) == Quote(fields[0]) + "," + SerializeRow(fields[1..])
  {
    var quoted := seq(|fields|, i requires 0 <= i < |fields| => Quote(fields[i]));
    assert quoted[1..] == seq(|fields[1..]|, i requires 0 <= i < |fields[1..]| => Quote(fields[1..][i]));
  }

  /** Un-quoting a written record gives back exactly its fields, in order:
      the writer loses nothing and the output is a valid record. */
  lemma {:induction false} SerializeRowRoundTrip(fields: seq<string>)
    requires |fields| > 0
    ensures ParseRecord(SerializeRow(fields)) == Some(fields)
    decreases |fields|
  {
    if |fields| == 1 {
      assert SerializeRow(fields) == Quote(fields[0]);
      QuoteRoundTrip(fields[0], "");
      assert Quote(fields[0]) + "" == Quote(fields[0]);
      assert [fields[0]] == fields;
    } else {
      var tail := SerializeRow(fields[1..]);
      SerializeRowCons(fields);
      QuoteRoundTrip(fields[0], "," + tail);
      assert Quote(fields[0]) + "," + tail == Quote(fields[0]) + ("," + tail);
      assert ("," + tail)[1..] == tail;
      SerializeRowRoundTrip(fields[1..]);
      assert [fields[0]] + fields[1..] == fields;
    }
  }

  /** Writing is injective on non-empty records. */
  lemma SerializeRowInjective(a: seq<string>, b: seq<string>)
    requires |a| > 0 && |b| > 0 && SerializeRow(a) == SerializeRow(b)
    ensures a == b
  {
    SerializeRowRoundTrip(a);
    SerializeRowRoundTrip(b);
  }
}

=== FILE: csv_schema.dfy ===
/** `CsvSchemaReader`: the header names the columns, the first ten data
    records decide each column's type.  A file is given as the records the
    CSV parser produced, header first. */
module CsvSchemaReader {
  import opened Wrappers
  import opened Text
  import opened Schema
  import JavaInt
  import DatePattern

  type Row = seq<string>

  const SampleSize: nat := 10

  /** The data records read for inference: up to ten, right after the header. */
  function Sample(records: seq<Row>): (rows: seq<Row>)
    requires |records| > 0
    ensures |rows| == if |records| - 1 < SampleSize then |records| - 1 else SampleSize
    ensures forall k :: 0 <= k < |rows| ==> rows[k] == records[k + 1]
  {
    if |records| - 1 < SampleSize then records[1..] else records[1..SampleSize + 1]
  }

  /** The row has a non-empty value in column `col`; rows that are too
      short or hold "" there are skipped by the scan. */
  predicate HasValue(row: Row, col: nat)
  {
    col < |row| && |row[col]| > 0
  }

  /** The three flags of `inferColumnType`. */
  datatype Flags = Flags(allEmpty: bool, isInteger: bool, isDate: bool)

  function ScanRow(f: Flags, row: Row, col: nat): Flags
  {
    if !HasValue(row, col) then f
    else Flags(false,
               f.isInteger && JavaInt.IsJavaInt(row[col]),
               f.isDate && DatePattern.MatchesDate(row[col]))
  }

  /** The scan loop, left to right; each flag ends up as the conjunction of
      its start value and a statement about all rows with a value. */
  function Scan(rows: seq<Row>, col: nat, f: Flags): (r: Flags)
    ensures r.allEmpty <==> f.allEmpty && forall k :: 0 <= k < |rows| ==> !HasValue(rows[k], col)
    ensures r.isInteger <==>
      f.isInteger && forall k :: 0 <= k < |rows| && HasValue(rows[k], col) ==> JavaInt.IsJavaInt(rows[k][col])
    ensures r.isDate <==>
      f.isDate && forall k :: 0 <= k < |rows| && HasValue(rows[k], col) ==> DatePattern.MatchesDate(rows[k][col])
    decreases |rows|
  {
    if |rows| == 0 then f
    else
      var r := Scan(rows[1..], col, ScanRow(f, rows[0], col));
      assert forall k :: 1 <= k < |rows| ==> rows[k] == rows[1..][k - 1];
      r
  }

  /** The `if` chain after the loop: the flags are read in priority order. */
  function Decide(f: Flags): (t: TypeTag)
    ensures t != Date
    ensures t == UInt32 <==> !f.allEmpty && f.isInteger
    ensures t == DateTime <==> !f.allEmpty && !f.isInteger && f.isDate
  {
    if f.allEmpty then StringType
    else if f.isInteger then UInt32
    else if f.isDate then DateTime
    else StringType
  }

  /** `inferColumnType(rows, colIndex)`: all-empty first, then integer, then
      date, then string.  The contract states each outcome in terms of the
      values in the column. */
  function InferColumnType(rows: seq<Row>, col: nat): (t: TypeTag)
    ensures t != Date
    ensures (forall k :: 0 <= k < |rows| ==> !HasValue(rows[k], col)) ==> t == StringType
    ensures t == UInt32 <==>
      && (exists k :: 0 <= k < |rows| && HasValue(rows[k], col))
      && (forall k :: 0 <= k < |rows| && HasValue(rows[k], col) ==> JavaInt.IsJavaInt(rows[k][col]))
    ensures t == DateTime <==>
      && (exists k :: 0 <= k < |rows| && HasValue(rows[k], col))
      && !(forall k :: 0 <= k < |rows| && HasValue(rows[k], col) ==> JavaInt.IsJavaInt(rows[k][col]))
      && (forall k :: 0 <= k < |rows| && HasValue(rows[k], col) ==> DatePattern.MatchesDate(rows[k][col]))
  {
    Decide(Scan(rows, col, Flags(true, true, true)))
  }

  /** The non-empty values the sample holds in column `col`. */
  function Values(rows: seq<Row>, col: nat): set<string>
  {
    set k | 0 <= k < |rows| && HasValue(rows[k], col) :: rows[k][col]
  }

  /** The typing rule read directly off the set of non-empty values. */
  function TypeOfValues(vs: set<string>): TypeTag
  {
    if vs == {} then StringType
    else if forall v :: v in vs ==> JavaInt.IsJavaInt(v) then UInt32
    else if forall v :: v in vs ==> DatePattern.MatchesDate(v) then DateTime
    else StringType
  }

  /** The scan computes the rule on the value set: the type depends on which
      non-empty values occur and on nothing else. */
  lemma InferColumnTypeIsTypeOfValues(rows: seq<Row>, col: nat)
    ensures InferColumnType(rows, col) == TypeOfValues(Values(rows, col))
  {
    var vs := Values(rows, col);
    if exists k :: 0 <= k < |rows| && HasValue(rows[k], col) {
      var k :| 0 <= k < |rows| && HasValue(rows[k], col);
      assert rows[k][col] in vs;
    }
    ForallValues(rows, col, JavaInt.IsJavaInt);
    ForallValues(rows, col, DatePattern.MatchesDate);
  }

  /** A property holds of every value in the set exactly when it holds of
      every row's non-empty value. */
  lemma ForallValues(rows: seq<Row>, col: nat, p: string -> bool)
    ensures (forall v :: v in Values(rows, col) ==> p(v)) <==>
      (forall k :: 0 <= k < |rows| && HasValue(rows[k], col) ==> p(rows[k][col]))
  {
    if forall v :: v in Values(rows, col) ==> p(v) {
      forall k | 0 <= k < |rows| && HasValue(rows[k], col) ensures p(rows[k][col]) {
        assert rows[k][col] in Values(rows, col);
      }
    }
  }


  /** Reordering the sampled rows never changes a column's type. */
  lemma PermutationInsensitive(rows: seq<Row>, rows': seq<Row>, col: nat)
    requires multiset(rows) == multiset(rows')
    ensures InferColumnType(rows, col) == InferColumnType(rows', col)
  {
    InferColumnTypeIsTypeOfValues(rows, col);
    InferColumnTypeIsTypeOfValues(rows', col);
    SameValuesUnderPermutation(rows, rows', col);
    SameValuesUnderPermutation(rows', rows, col);
  }

  lemma SameValuesUnderPermutation(rows: seq<Row>, rows': seq<Row>, col: nat)
    requires multiset(rows) == multiset(rows')
    ensures Values(rows, col) <= Values(rows', col)
  {
    forall v | v in Values(rows, col) ensures v in Values(rows', col) {
      var k :| 0 <= k < |rows| && HasValue(rows[k], col) && rows[k][col] == v;
      assert rows[k] in multiset(rows');
      var j :| 0 <= j < |rows'| && rows'[j] == rows[k];
    }
  }

  /** Inserting a row that is short or empty at the column never changes
      the column's type (and so neither does removing one). */
  lemma BlankRowInsensitive(a: seq<Row>, row: Row, b: seq<Row>, col: nat)
    requires !HasValue(row, col)
    ensures InferColumnType(a + [row] + b, col) == InferColumnType(a + b, col)
  {
    InferColumnTypeIsTypeOfValues(a + [row] + b, col);
    InferColumnTypeIsTypeOfValues(a + b, col);
    BlankRowAddsNoValue(a, row, b, col);
  }

  lemma BlankRowAddsNoValue(a: seq<Row>, row: Row, b: seq<Row>, col: nat)
    requires !HasValue(row, col)
    ensures Values(a + [row] + b, col) == Values(a + b, col)
  {
    var longer := a + [row] + b;
    var shorter := a + b;
    forall v | v in Values(longer, col) ensures v in Values(shorter, col) {
      var k :| 0 <= k < |longer| && HasValue(longer[k], col) && longer[k][col] == v;
      if k < |a| { assert shorter[k] == longer[k]; } else { assert shorter[k - 1] == longer[k]; }
    }
    forall v | v in Values(shorter, col) ensures v in Values(longer, col) {
      var k :| 0 <= k < |shorter| && HasValue(shorter[k], col) && shorter[k][col] == v;
      if k < |a| { assert longer[k] == shorter[k]; } else { assert longer[k + 1] == shorter[k]; }
    }
  }

  /** Signs are accepted by the integer test, so a column of negative numbers
      is tagged "UInt32" all the same. */
  lemma NegativeColumnIsUInt32()
    ensures InferColumnType([["-5"], ["-17"]], 0) == UInt32
  {
    var rows: seq<Row> := [["-5"], ["-17"]];
    assert JavaInt.Body("-5") == "5";
    assert JavaInt.Body("-17") == "17";
    assert "17"[..1] == "1";
    assert HasValue(rows[0], 0);
  }

  /** The integer test wins over the date test, but the two never compete: a
      column whose values are all integers has no date among them, so
      checking the date test first would give the same answer. */
  lemma PriorityIsImmaterial(rows: seq<Row>, col: nat)
    requires exists k :: 0 <= k < |rows| && HasValue(rows[k], col)
    ensures !((forall k :: 0 <= k < |rows| && HasValue(rows[k], col) ==> JavaInt.IsJavaInt(rows[k][col]))
           && (forall k :: 0 <= k < |rows| && HasValue(rows[k], col) ==> DatePattern.MatchesDate(rows[k][col])))
  {
    var k :| 0 <= k < |rows| && HasValue(rows[k], col);
    if DatePattern.MatchesDate(rows[k][col]) {
      DatePattern.DateIsNeverInt(rows[k][col]);
    }
  }

  /** `inferSchema`: no header is an IOException; otherwise one column per
      header field, in header order, named by the sanitised header (letter
      case kept) and typed by the rule on the sample's values. */
  function InferSchema(records: seq<Row>): (r: Result<seq<Column>>)
    ensures |records| == 0 <==> r == Err(CsvNoHeader)
    ensures r.Ok? <==> |records| > 0
    ensures r.Ok? ==> |r.value| == |records[0]|
    ensures r.Ok? ==> forall i :: 0 <= i < |r.value| ==>
      && r.value[i].name == Sanitize(records[0][i])
      && r.value[i].ty == TypeOfValues(Values(Sample(records), i))
    ensures r.Ok? ==> WellNamed(r.value)
  {
    if |records| == 0 then Err(CsvNoHeader)
    else
      var header := records[0];
      var rows := Sample(records);
      var cols := seq(|header|, i requires 0 <= i < |header| => Column(Sanitize(header[i]), InferColumnType(rows, i)));
      assert forall i :: 0 <= i < |cols| ==> cols[i].ty == TypeOfValues(Values(rows, i)) by {
        forall i | 0 <= i < |cols| ensures cols[i].ty == TypeOfValues(Values(rows, i)) {
          InferColumnTypeIsTypeOfValues(rows, i);
        }
      }
      Ok(cols)
  }

  /** Records past the eleventh (header plus ten) are never looked at. */
  lemma OnlyFirstElevenRecords(records: seq<Row>, more: seq<Row>)
    requires |records| >= SampleSize + 1
    ensures InferSchema(records + more) == InferSchema(records)
  {
    assert Sample(records + more) == Sample(records);
    assert (records + more)[0] == records[0];
  }

  /** The column-name sanitiser is idempotent: sanitising a generated name
      again gives the same name. */
  lemma ColumnNamesStable(records: seq<Row>)
    requires |records| > 0
    ensures forall i :: 0 <= i < |InferSchema(records).value| ==>
      Sanitize(InferSchema(records).value[i].name) == InferSchema(records).value[i].name
  {
    forall i | 0 <= i < |InferSchema(records).value| {
      SanitizeIdempotent(records[0][i]);
    }
  }
}

=== FILE: date_pattern.dfy ===
/** The pattern `\d{4}-\d{2}-\d{2}( \d{2}:\d{2}:\d{2})?` as used with
    `String.matches`, which demands that the whole string match.  The
    pattern has no alternation besides the optional time group, so it is
    written as two fixed sequences of atoms. */
module DatePattern {
  import opened Text
  import JavaInt

  datatype Atom = AnyDigit | Lit(c: char)

  /** `\d{n}` */
  function Digits(n: nat): (p: seq<Atom>)
    ensures |p| == n && forall i :: 0 <= i < n ==> p[i] == AnyDigit
  {
    seq(n, _ => AnyDigit)
  }

  /** `\d{4}-\d{2}-\d{2}` */
  function DateAtoms(): seq<Atom>
  {
    Digits(4) + [Lit('-')] + Digits(2) + [Lit('-')] + Digits(2)
  }

  /** ` \d{2}:\d{2}:\d{2}`, the optional group */
  function TimeAtoms(): seq<Atom>
  {
    [Lit(' ')] + Digits(2) + [Lit(':')] + Digits(2) + [Lit(':')] + Digits(2)
  }

  predicate AtomMatches(a: Atom, c: char)
  {
    match a
    case AnyDigit => IsDigit(c)
    case Lit(l) => c == l
  }

  predicate MatchesAtoms(p: seq<Atom>, s: string)
  {
    |s| == |p| && forall i :: 0 <= i < |s| ==> AtomMatches(p[i], s[i])
  }

  /** The whole string matches the date pattern, with or without the time. */
  predicate MatchesDate(s: string)
  {
    MatchesAtoms(DateAtoms(), s) || MatchesAtoms(DateAtoms() + TimeAtoms(), s)
  }

  /** Position-by-position description of the same language: `YYYY-MM-DD`
      is ten characters with dashes at 4 and 7; the timed form adds a space
      at 10 and colons at 13 and 16, nineteen characters in all. */
  predicate DateShape(s: string)
  {
    && (|s| == 10 || |s| == 19)
    && forall i :: 0 <= i < |s| ==>
         if i == 4 || i == 7 then s[i] == '-'
         else if i == 10 then s[i] == ' '
         else if i == 13 || i == 16 then s[i] == ':'
         else IsDigit(s[i])
  }

  lemma DateAtomsLayout()
    ensures |DateAtoms()| == 10 && |DateAtoms() + TimeAtoms()| == 19
    ensures forall i :: 0 <= i < 19 ==>
      (DateAtoms() + TimeAtoms())[i] ==
        (if i == 4 || i == 7 then Lit('-')
         else if i == 10 then Lit(' ')
         else if i == 13 || i == 16 then Lit(':')
         else AnyDigit)
  {
  }

  /** The atom expansion of the regular expression and the positional
      description accept exactly the same strings. */
  lemma MatchesDateIffShape(s: string)
    ensures MatchesDate(s) <==> DateShape(s)
  {
    DateAtomsLayout();
    var full := DateAtoms() + TimeAtoms();
    assert forall i :: 0 <= i < 10 ==> DateAtoms()[i] == full[i];
  }

  /** No string passes both the integer test and the date test: a date has a
      dash after four leading digits, which `Integer.parseInt` refuses. */
  lemma DateIsNeverInt(s: string)
    requires MatchesDate(s)
    ensures !JavaInt.IsJavaInt(s)
  {
    MatchesDateIffShape(s);
    assert IsDigit(s[0]);
    assert JavaInt.Body(s) == s;
    assert !IsDigit(s[4]);
  }

  lemma Examples()
    ensures MatchesDate("2024-01-15")
    ensures MatchesDate("2024-01-15 10:30:00")
    ensures !MatchesDate("2024")
    ensures !MatchesDate("2024-1-15")
  {
    MatchesDateIffShape("2024-01-15");
    MatchesDateIffShape("2024-01-15 10:30:00");
    MatchesDateIffShape("2024");
    MatchesDateIffShape("2024-1-15");
  }
}

=== FILE: ddl.dfy ===
/** The CREATE TABLE text assembled by `createTableFromFile`, the choice of
    its ORDER BY key, and a reader for that text that recovers the schema
    and the key from it. */
module Ddl {
  import opened Wrappers
  import opened Text
  import opened Schema

  const CreatePrefix: string := "CREATE TABLE IF NOT EXISTS "
  const EngineClause: string := ") ENGINE=MergeTree ORDER BY "
  const DefSeparator: string := ", "

  /** One column in the statement: the name in backticks, a space, the type. */
  function ColumnDef(c: Column): string
  {
    "`" + c.name + "` " + TypeName(c.ty)
  }

  function ColumnDefs(schema: seq<Column>): (defs: seq<string>)
    ensures |defs| == |schema|
    ensures forall i :: 0 <= i < |schema| ==> defs[i] == ColumnDef(schema[i])
  {
    seq(|schema|, i requires 0 <= i < |schema| => ColumnDef(schema[i]))
  }

  /** The column definitions separated by ", ", with no trailing separator. */
  function ColumnList(schema: seq<Column>): string
  {
    Join(ColumnDefs(schema), DefSeparator)
  }

  /** The types the ORDER BY filter looks for: "DateTime" or "Date". */
  predicate IsOrderingType(t: TypeTag) { t == DateTime || t == Date }

  /** The first column at or after `from` whose type is an ordering type. */
  function FirstOrderingFrom(schema: seq<Column>, from: nat): (r: Option<nat>)
    requires from <= |schema|
    ensures r.None? ==> forall j :: from <= j < |schema| ==> !IsOrderingType(schema[j].ty)
    ensures r.Some? ==>
      && from <= r.value < |schema|
      && IsOrderingType(schema[r.value].ty)
      && forall j :: from <= j < r.value ==> !IsOrderingType(schema[j].ty)
    decreases |schema| - from
  {
    if from == |schema| then None
    else if IsOrderingType(schema[from].ty) then Some(from)
    else FirstOrderingFrom(schema, from + 1)
  }

  /** Position of the ORDER BY column: the first DateTime/Date column, or the
      first column when there is none. */
  function OrderByIndex(schema: seq<Column>): (k: nat)
    requires |schema| > 0
    ensures k < |schema|
    ensures forall j :: 0 <= j < k ==> !IsOrderingType(schema[j].ty)
    ensures IsOrderingType(schema[k].ty) || (k == 0 && forall j :: 0 <= j < |schema| ==> !IsOrderingType(schema[j].ty))
  {
    match FirstOrderingFrom(schema, 0)
    case Some(k) => k
    case None => 0
  }

  /** The ORDER BY key.  `schema.get(0)` is evaluated before the stream's
      answer is used, so an empty schema fails even though the filter would
      simply have found nothing. */
  function OrderByKey(schema: seq<Column>): (r: Result<string>)
    ensures |schema| == 0 <==> r == Err(EmptySchema)
    ensures r.Ok? <==> |schema| > 0
    ensures r.Ok? ==> exists k :: 0 <= k < |schema| && schema[k].name == r.value
    ensures r.Ok? ==> r.value == schema[OrderByIndex(schema)].name
  {
    if |schema| == 0 then Err(EmptySchema) else Ok(schema[OrderByIndex(schema)].name)
  }

  /** The CREATE statement for `table`. */
  function CreateTable(table: string, schema: seq<Column>): (r: Result<string>)
    ensures r.Err? <==> |schema| == 0
    ensures r.Err? ==> r.error == EmptySchema
  {
    match OrderByKey(schema)
    case Err(e) => Err(e)
    case Ok(key) => Ok(CreatePrefix + table + " (" + ColumnList(schema) + EngineClause + key)
  }

  /** The statement every creation attempt runs before the CREATE. */
  function DropTable(table: string): string
  {
    "DROP TABLE IF EXISTS " + table
  }

  predicate StartsWith(s: string, prefix: string)
  {
    |prefix| <= |s| && s[..|prefix|] == prefix
  }

  /** Reads "`name` Type" back into a column. */
  function ParseColumnDef(d: string): Option<Column>
  {
    if |d| == 0 || d[0] != '`' then None
    else
      match IndexOf(d[1..], '`')
      case None => None
      case Some(j) =>
        if j + 2 < |d| && d[j + 2] == ' ' then
          match TypeFromName(d[j + 3..])
          case None => None
          case Some(t) => Some(Column(d[1..j + 1], t))
        else None
  }

  function ParseColumnDefs(defs: seq<string>): Option<seq<Column>>
    decreases |defs|
  {
    if |defs| == 0 then Some([])
    else
      match ParseColumnDef(defs[0])
      case None => None
      case Some(c) =>
        match ParseColumnDefs(defs[1..])
        case None => None
        case Some(cs) => Some([c] + cs)
  }

  /** Reads what follows "CREATE TABLE IF NOT EXISTS <table> (": the column
      list runs up to the first ')', and the key is what follows the engine
      clause. */
  function ParseBody(rest: string): Option<(seq<Column>, string)>
  {
    match IndexOf(rest, ')')
    case None => None
    case Some(j) =>
      if !StartsWith(rest[j..], EngineClause) then None
      else
        match ParseColumnDefs(Split(rest[..j], DefSeparator))
        case None => None
        case Some(cols) => Some((cols, rest[j + |EngineClause|..]))
  }

  /** Reads a CREATE statement for `table` back into its columns and key. */
  function ParseCreate(table: string, stmt: string): Option<(seq<Column>, string)>
  {
    var prefix := CreatePrefix + table + " (";
    if !StartsWith(stmt, prefix) then None else ParseBody(stmt[|prefix|..])
  }

  lemma ParseColumnDefRoundTrip(c: Column)
    requires AllWordChars(c.name)
    ensures ParseColumnDef(ColumnDef(c)) == Some(c)
  {
    var d := ColumnDef(c);
    assert d[1..] == c.name + ['`'] + (" " + TypeName(c.ty));
    WordCharsFree(c.name, '`');
    IndexOfAfterFreePrefix(c.name, '`', " " + TypeName(c.ty));
    var j := |c.name|;
    assert d[j + 2] == ' ';
    assert d[j + 3..] == TypeName(c.ty);
    assert d[1..j + 1] == c.name;
    TypeNameRoundTrip(c.ty, d[j + 3..]);
  }

  lemma {:induction false} ParseColumnDefsRoundTrip(schema: seq<Column>)
    requires WellNamed(schema)
    ensures ParseColumnDefs(ColumnDefs(schema)) == Some(schema)
    decreases |schema|
  {
    if |schema| > 0 {
      ParseColumnDefRoundTrip(schema[0]);
      assert ColumnDefs(schema)[1..] == ColumnDefs(schema[1..]);
      ParseColumnDefsRoundTrip(schema[1..]);
      assert [schema[0]] + schema[1..] == schema;
    }
  }

  /** A character found in no part and not in the separator is not in the
      joined text. */
  lemma {:induction false} NotInJoin(parts: seq<string>, sep: string, c: char)
    requires c !in sep
    requires forall k :: 0 <= k < |parts| ==> c !in parts[k]
    ensures c !in Join(parts, sep)
    decreases |parts|
  {
    if |parts| > 1 {
      NotInJoin(parts[1..], sep, c);
    }
  }

  lemma WordCharsFree(s: string, c: char)
    requires AllWordChars(s) && !IsWordChar(c)
    ensures c !in s
  {
  }

  lemma DefsAvoid(schema: seq<Column>, c: char)
    requires WellNamed(schema)
    requires c != '`' && c != ' ' && !IsWordChar(c)
    ensures forall k :: 0 <= k < |schema| ==> c !in ColumnDefs(schema)[k]
  {
    forall k | 0 <= k < |schema| ensures c !in ColumnDefs(schema)[k] {
      WordCharsFree(schema[k].name, c);
      WordCharsFree(TypeName(schema[k].ty), c);
    }
  }

  /** In "<cols>) ENGINE=... <key>" with no ')' in the columns, the first
      ')' ends the column list, and the engine clause and the key follow it. */
  lemma BodyLayout(cols: string, key: string)
    requires ')' !in cols
    ensures var rest := cols + EngineClause + key;
      && IndexOf(rest, ')') == Some(|cols|)
      && rest[..|cols|] == cols
      && StartsWith(rest[|cols|..], EngineClause)
      && rest[|cols| + |EngineClause|..] == key
  {
    var tail := EngineClause + key;
    assert tail[0] == ')';
    var rest := cols + tail;
    assert cols + EngineClause + key == rest;
    assert rest == cols + [')'] + tail[1..];
    IndexOfAfterFreePrefix(cols, ')', tail[1..]);
    assert rest[|cols|..] == tail;
    assert tail[..|EngineClause|] == EngineClause;
  }

  lemma ParseBodyOfShape(cols: string, key: string, schema: seq<Column>)
    requires ')' !in cols
    requires ParseColumnDefs(Split(cols, DefSeparator)) == Some(schema)
    ensures ParseBody(cols + EngineClause + key) == Some((schema, key))
  {
    BodyLayout(cols, key);
  }

  /** The reader takes any statement of the right shape apart. */
  lemma ParseCreateOfShape(table: string, cols: string, key: string, schema: seq<Column>)
    requires ')' !in cols
    requires ParseColumnDefs(Split(cols, DefSeparator)) == Some(schema)
    ensures ParseCreate(table, CreatePrefix + table + " (" + cols + EngineClause + key) == Some((schema, key))
  {
    var prefix := CreatePrefix + table + " (";
    var body := cols + EngineClause + key;
    assert prefix + cols + EngineClause + key == prefix + body;
    assert (prefix + body)[..|prefix|] == prefix;
    assert (prefix + body)[|prefix|..] == body;
    ParseBodyOfShape(cols, key, schema);
  }

  /** Every column of a well-named schema appears in the statement exactly
      once and in schema order, and the key follows the engine clause: the
      reader recovers the schema and the key from the text. */
  lemma CreateTableRoundTrip(table: string, schema: seq<Column>)
    requires |schema| > 0 && WellNamed(schema)
    ensures ParseCreate(table, CreateTable(table, schema).value) == Some((schema, OrderByKey(schema).value))
  {
    DefsAvoid(schema, ')');
    NotInJoin(ColumnDefs(schema), DefSeparator, ')');
    DefsAvoid(schema, ',');
    SplitJoin(ColumnDefs(schema), DefSeparator);
    ParseColumnDefsRoundTrip(schema);
    ParseCreateOfShape(table, ColumnList(schema), OrderByKey(schema).value, schema);
  }

  /** A DateTime column anywhere after position 0 is chosen over the first
      column, as long as no earlier column is DateTime or Date. */
  lemma DateTimeColumnIsKey(schema: seq<Column>, k: nat)
    requires k < |schema| && schema[k].ty == DateTime
    requires forall j :: 0 <= j < k ==> !IsOrderingType(schema[j].ty)
    ensures OrderByKey(schema) == Ok(schema[k].name)
  {
  }
}

=== FILE: java_int.dfy ===
/** `Integer.parseInt(String)` with radix 10, restricted to ASCII digits.
    `IsJavaInt` is the declarative reading (optional sign, at least one
    digit, value inside the 32-bit range); `ParseInt` follows the JDK
    algorithm step by step (negative accumulation against a limit) and is
    proved to agree with it. */
module JavaInt {
  import opened Wrappers
  import opened Text

  const IntMin: int := -0x8000_0000
  const IntMax: int := 0x7fff_ffff

  predicate AllDigits(s: string) { forall i :: 0 <= i < |s| ==> IsDigit(s[i]) }

  function DigitValue(c: char): nat
    requires IsDigit(c)
  {
    c as int - '0' as int
  }

  /** Decimal value of a digit string, most significant digit first. */
  function DigitsValue(s: string): nat
    requires AllDigits(s)
    decreases |s|
  {
    if |s| == 0 then 0 else 10 * DigitsValue(s[..|s| - 1]) + DigitValue(s[|s| - 1])
  }

  predicate HasSign(s: string) { |s| > 0 && (s[0] == '+' || s[0] == '-') }

  predicate IsNegative(s: string) { |s| > 0 && s[0] == '-' }

  /** The digits after an optional leading sign. */
  function Body(s: string): string { if HasSign(s) then s[1..] else s }

  function SignedValue(s: string): int
    requires AllDigits(Body(s))
  {
    if IsNegative(s) then -(DigitsValue(Body(s)) as int) else DigitsValue(Body(s))
  }

  /** What `Integer.parseInt` accepts without throwing NumberFormatException. */
  predicate IsJavaInt(s: string)
  {
    |Body(s)| > 0 && AllDigits(Body(s)) && IntMin <= SignedValue(s) <= IntMax
  }

  /** Appending a digit never makes the value smaller. */
  lemma {:induction false} DigitsPrefixBound(s: string, k: nat)
    requires AllDigits(s) && k <= |s|
    ensures AllDigits(s[..k]) && DigitsValue(s[..k]) <= DigitsValue(s)
    decreases |s| - k
  {
    if k < |s| {
      DigitsPrefixBound(s, k + 1);
      assert s[..k + 1][..k] == s[..k];
    } else {
      assert s[..k] == s;
    }
  }

  /** The JDK digit loop: the magnitude is accumulated as a negative number
      bounded below by `limit`, and `multmin = limit / 10` is Java's
      truncating division of a negative int.  It succeeds exactly on digit
      strings whose value fits under `-limit`. */
  method Accumulate(digits: string, limit: int) returns (r: Option<int>)
    requires limit == IntMin || limit == -IntMax
    ensures r.Some? <==> AllDigits(digits) && DigitsValue(digits) <= -limit
    ensures r.Some? ==> AllDigits(digits) && r.value == -(DigitsValue(digits) as int)
  {
    var multmin := -((-limit) / 10);
    var result := 0;
    var i := 0;
    while i < |digits|
      invariant 0 <= i <= |digits|
      invariant AllDigits(digits[..i])
      invariant result == -(DigitsValue(digits[..i]) as int)
      invariant limit <= result <= 0
    {
      var c := digits[i];
      if !IsDigit(c) {
        return None;
      }
      var digit := DigitValue(c);
      assert digits[..i + 1][..i] == digits[..i];
      assert DigitsValue(digits[..i + 1]) == -10 * result + digit;
      if result < multmin {
        if AllDigits(digits) {
          DigitsPrefixBound(digits, i + 1);
        }
        return None;
      }
      result := result * 10;
      if result < limit + digit {
        if AllDigits(digits) {
          DigitsPrefixBound(digits, i + 1);
        }
        return None;
      }
      result := result - digit;
      i := i + 1;
    }
    assert digits[..i] == digits;
    return Some(result);
  }

  /** `Integer.parseInt(s)`: an optional sign, then the digit loop against
      the limit the sign allows. */
  method ParseInt(s: string) returns (r: Option<int>)
    ensures r.Some? <==> IsJavaInt(s)
    ensures r.Some? ==> IsJavaInt(s) && r.value == SignedValue(s)
  {
    var len := |s|;
    if len == 0 {
      return None;
    }
    var negative := false;
    var limit := -IntMax;
    var i := 0;
    var first := s[0];
    if first < '0' {
      if first == '-' {
        negative := true;
        limit := IntMin;
      } else if first != '+' {
        return None;
      }
      if len == 1 {
        return None;
      }
      i := 1;
    }
    assert s[i..] == Body(s);
    var magnitude := Accumulate(s[i..], limit);
    match magnitude
    case None =>
      return None;
    case Some(result) =>
      return Some(if negative then result else -result);
  }

  /** A leading minus sign is accepted: negative numbers pass the integer test. */
  lemma NegativeNumbersParse()
    ensures IsJavaInt("-5") && SignedValue("-5") == -5
    ensures IsJavaInt("+42") && SignedValue("+42") == 42
  {
    assert Body("-5") == "5";
    assert Body("+42") == "42";
    assert "42"[..1] == "4";
  }

  /** A sign alone, the empty string and embedded junk are rejected. */
  lemma RejectedInputs()
    ensures !IsJavaInt("") && !IsJavaInt("-") && !IsJavaInt("+") && !IsJavaInt("1a")
  {
    assert Body("-") == "";
    assert Body("+") == "";
    assert Body("1a")[1] == 'a';
  }

  /** Appending a digit multiplies the value by ten and adds the digit. */
  lemma DigitsSnoc(s: string, c: char)
    requires AllDigits(s) && IsDigit(c)
    ensures AllDigits(s + [c]) && DigitsValue(s + [c]) == 10 * DigitsValue(s) + DigitValue(c)
  {
    assert (s + [c])[..|s|] == s;
  }

  /** "2147483648" is 2^31, built up one digit at a time. */
  lemma TwoToThe31()
    ensures AllDigits("2147483648") && DigitsValue("2147483648") == 0x8000_0000
  {
    var d: string := "";
    DigitsSnoc(d, '2');
    d := d + ['2'];
    DigitsSnoc(d, '1');
    d := d + ['1'];
    DigitsSnoc(d, '4');
    d := d + ['4'];
    DigitsSnoc(d, '7');
    d := d + ['7'];
    DigitsSnoc(d, '4');
    d := d + ['4'];
    DigitsSnoc(d, '8');
    d := d + ['8'];
    DigitsSnoc(d, '3');
    d := d + ['3'];
    DigitsSnoc(d, '6');
    d := d + ['6'];
    DigitsSnoc(d, '4');
    d := d + ['4'];
    DigitsSnoc(d, '8');
    d := d + ['8'];
    assert d == "2147483648";
  }

  /** The range ends are those of a 32-bit int: the most negative value is
      accepted, its negation is not. */
  lemma RangeEnds()
    ensures IsJavaInt("-2147483648")
    ensures !IsJavaInt("2147483648")
  {
    assert Body("-2147483648") == "2147483648";
    assert Body("2147483648") == "2147483648";
    TwoToThe31();
  }
}

=== FILE: json_schema.dfy ===
/** `JsonSchemaReader`: the file is a list of objects; the first object's
    keys become the columns, each typed from that object's own value. */
module JsonSchemaReader {
  import opened Wrappers
  import opened Text
  import opened Schema
  import DatePattern

  /** A value as the JSON binder hands it over.  Integral numbers arrive as
      `JInt`; whether Java boxes them as Integer/Long or as BigInteger
      depends on their size (see `IsBoxedIntegral`). */
  datatype JsonValue =
    | JNull
    | JBool(b: bool)
    | JInt(n: int)
    | JFloat(x: real)
    | JString(s: string)
    | JArray(items: seq<JsonValue>)
    | JObject(fields: seq<(string, JsonValue)>)

  /** One object, its entries in the map's iteration order. */
  type Record = seq<(string, JsonValue)>

  const LongMin: int := -0x8000_0000_0000_0000
  const LongMax: int := 0x7fff_ffff_ffff_ffff

  /** Integral numbers inside the signed 64-bit range are bound to Integer or
      Long; larger ones become BigInteger, which `inferType` does not test for. */
  predicate IsBoxedIntegral(v: JsonValue)
  {
    v.JInt? && LongMin <= v.n <= LongMax
  }

  /** `inferType(value, records)`: null is a string, Integer/Long is
      "UInt32", a string matching the date pattern is "DateTime", anything
      else is a string.  The record list is passed along but never read. */
  function InferType(v: JsonValue, records: seq<Record>): (t: TypeTag)
    ensures t != Date
    ensures t == UInt32 <==> IsBoxedIntegral(v)
    ensures t == DateTime <==> v.JString? && DatePattern.MatchesDate(v.s)
    ensures v.JNull? || v.JBool? || v.JFloat? || v.JArray? || v.JObject? ==> t == StringType
  {
    if v.JNull? then StringType
    else if IsBoxedIntegral(v) then UInt32
    else if v.JString? && DatePattern.MatchesDate(v.s) then DateTime
    else StringType
  }

  /** `inferSchema`: an empty list is an error; otherwise one column per entry
      of the first record, in its order, with the key sanitised and then
      lower-cased. */
  function InferSchema(records: seq<Record>): (r: Result<seq<Column>>)
    ensures |records| == 0 <==> r == Err(JsonEmpty)
    ensures r.Ok? <==> |records| > 0
    ensures r.Ok? ==> |r.value| == |records[0]|
    ensures r.Ok? ==> forall i :: 0 <= i < |r.value| ==>
      && r.value[i].name == SanitizeLower(records[0][i].0)
      && r.value[i].ty == InferType(records[0][i].1, [])
    ensures r.Ok? ==> WellNamed(r.value)
    ensures r.Ok? ==> forall i :: 0 <= i < |r.value| ==> AllLowerWordChars(r.value[i].name)
  {
    if |records| == 0 then Err(JsonEmpty)
    else
      var first := records[0];
      var cols := seq(|first|, i requires 0 <= i < |first| =>
                        Column(SanitizeLower(first[i].0), InferType(first[i].1, records)));
      assert WellNamed(cols) by {
        forall i | 0 <= i < |cols| ensures AllWordChars(cols[i].name) {
          assert AllLowerWordChars(cols[i].name);
        }
      }
      Ok(cols)
  }

  /** Only the first record matters: the schema of a non-empty list is the
      schema of its first record alone, whatever the later records hold. */
  lemma FirstRecordOnly(records: seq<Record>)
    requires |records| > 0
    ensures InferSchema(records) == InferSchema([records[0]])
  {
    var a := InferSchema(records).value;
    var b := InferSchema([records[0]]).value;
    assert |a| == |b|;
    forall i | 0 <= i < |a| ensures a[i] == b[i] {
      assert a[i].ty == InferType(records[0][i].1, []) == b[i].ty;
    }
    assert a == b;
  }

  /** A column exists only for a key of the first record: keys that occur
      only in later records never produce a column. */
  lemma ColumnsComeFromFirstRecord(records: seq<Record>, name: string)
    requires |records| > 0
    requires exists i :: 0 <= i < |InferSchema(records).value| && InferSchema(records).value[i].name == name
    ensures exists j :: 0 <= j < |records[0]| && SanitizeLower(records[0][j].0) == name
  {
    var i :| 0 <= i < |InferSchema(records).value| && InferSchema(records).value[i].name == name;
    assert SanitizeLower(records[0][i].0) == name;
  }

  /** The same characters in a JSON string and in a CSV cell can be typed
      differently: a quoted number is a string to this reader. */
  lemma QuotedNumberIsString()
    ensures InferType(JString("42"), []) == StringType
    ensures InferType(JInt(42), []) == UInt32
    ensures InferType(JInt(LongMax + 1), []) == StringType
  {
    DatePattern.MatchesDateIffShape("42");
  }
}

=== FILE: retry.dfy ===
/** The retry envelope shared by table creation and batch insertion: up to
    MAX_RETRIES attempts, each on a fresh connection, stopping at the first
    success, with a fixed pause after every failed attempt but the last.

    The database is not modelled.  Its answers come from an oracle
    `ok: nat -> bool`: the n-th statement of the session (counted from 0)
    succeeds exactly when `ok(n)`.  A connection that cannot be opened is
    the attempt's next statement failing. */
module Retry {

  const MaxRetries: nat := 3
  const RetryDelayMs: nat := 1000

  /** One statement sent to the server and whether it succeeded. */
  datatype Exec = Exec(sql: string, ok: bool)

  /** The statements one attempt sent, in order. */
  type Attempt = seq<Exec>

  predicate AllOk(a: Attempt) { forall i :: 0 <= i < |a| ==> a[i].ok }

  /** `a` is what one attempt at running `stmts` can look like: a non-empty
      prefix of the statements, all succeeding but possibly the last, and
      stopping early only at a failure. */
  predicate IsAttemptOf(a: Attempt, stmts: seq<string>)
  {
    && 1 <= |a| <= |stmts|
    && (forall i :: 0 <= i < |a| ==> a[i].sql == stmts[i])
    && (forall i :: 0 <= i < |a| - 1 ==> a[i].ok)
    && (|a| < |stmts| ==> !a[|a| - 1].ok)
  }

  /** One attempt: the statements run in order until the first failure. */
  function RunAttempt(stmts: seq<string>, ok: nat -> bool, next: nat): (a: Attempt)
    requires |stmts| > 0
    ensures IsAttemptOf(a, stmts)
    ensures forall i {:trigger a[i]} :: 0 <= i < |a| ==> a[i].ok == ok(next + i)
    ensures AllOk(a) ==> |a| == |stmts|
    decreases |stmts|
  {
    if !ok(next) || |stmts| == 1 then [Exec(stmts[0], ok(next))]
    else
      var rest := RunAttempt(stmts[1..], ok, next + 1);
      ConsAttempt(Exec(stmts[0], true), rest, stmts, ok, next);
      [Exec(stmts[0], true)] + rest
  }

  /** A successful first statement followed by an attempt at the rest is
      an attempt at the whole list. */
  lemma ConsAttempt(x: Exec, rest: Attempt, stmts: seq<string>, ok: nat -> bool, next: nat)
    requires |stmts| > 1 && x == Exec(stmts[0], true) && ok(next)
    requires IsAttemptOf(rest, stmts[1..])
    requires forall i {:trigger rest[i]} :: 0 <= i < |rest| ==> rest[i].ok == ok(next + 1 + i)
    requires AllOk(rest) ==> |rest| == |stmts| - 1
    ensures IsAttemptOf([x] + rest, stmts)
    ensures forall i {:trigger ([x] + rest)[i]} :: 0 <= i < |[x] + rest| ==> ([x] + rest)[i].ok == ok(next + i)
    ensures AllOk([x] + rest) ==> |[x] + rest| == |stmts|
  {
    var a := [x] + rest;
    assert forall i :: 1 <= i < |a| ==> a[i] == rest[i - 1];
    if AllOk(a) {
      assert forall i :: 0 <= i < |rest| ==> rest[i] == a[i + 1];
    }
  }

  /** Number of statements sent over a list of attempts. */
  function Used(attempts: seq<Attempt>): nat
    decreases |attempts|
  {
    if |attempts| == 0 then 0 else |attempts[0]| + Used(attempts[1..])
  }

  datatype Run = Run(attempts: seq<Attempt>, ok: bool)

  /** `r` is what the envelope can do with at most `limit` attempts at
      `stmts`: at least one attempt, every one but the last a failure,
      success exactly when the last attempt ran all its statements
      successfully, and all `limit` attempts used up when it fails. */
  predicate IsRunOf(r: Run, stmts: seq<string>, limit: nat)
  {
    && 1 <= |r.attempts| <= limit
    && (forall i :: 0 <= i < |r.attempts| ==> IsAttemptOf(r.attempts[i], stmts))
    && (forall i :: 0 <= i < |r.attempts| - 1 ==> !AllOk(r.attempts[i]))
    && (r.ok <==> AllOk(r.attempts[|r.attempts| - 1]))
    && (!r.ok ==> |r.attempts| == limit)
  }

  /** The `for (attempt = 1; attempt <= MAX_RETRIES; attempt++)` loop, from
      attempt number `attempt` on, the oracle positioned at `next`. */
  function WithRetryFrom(stmts: seq<string>, ok: nat -> bool, next: nat, attempt: nat): (r: Run)
    requires |stmts| > 0 && 1 <= attempt <= MaxRetries
    ensures IsRunOf(r, stmts, MaxRetries - attempt + 1)
    ensures FollowsOracle(r.attempts, ok, next)
    decreases MaxRetries - attempt
  {
    var a := RunAttempt(stmts, ok, next);
    if AllOk(a) || attempt == MaxRetries then
      FollowsOracleCons([a], ok, next);
      Run([a], AllOk(a))
    else
      var rest := WithRetryFrom(stmts, ok, next + |a|, attempt + 1);
      ConsRun(a, rest, stmts, MaxRetries - attempt);
      assert ([a] + rest.attempts)[1..] == rest.attempts;
      FollowsOracleCons([a] + rest.attempts, ok, next);
      Run([a] + rest.attempts, rest.ok)
  }

  /** A failed attempt followed by a run with one attempt fewer is a run. */
  lemma ConsRun(a: Attempt, rest: Run, stmts: seq<string>, limit: nat)
    requires IsAttemptOf(a, stmts) && !AllOk(a)
    requires IsRunOf(rest, stmts, limit)
    ensures IsRunOf(Run([a] + rest.attempts, rest.ok), stmts, limit + 1)
  {
    var r := Run([a] + rest.attempts, rest.ok);
    assert forall i :: 1 <= i < |r.attempts| ==> r.attempts[i] == rest.attempts[i - 1];
  }

  /** The whole envelope, from the first attempt. */
  function WithRetry(stmts: seq<string>, ok: nat -> bool, next: nat): (r: Run)
    requires |stmts| > 0
    ensures IsRunOf(r, stmts, MaxRetries)
    ensures FollowsOracle(r.attempts, ok, next)
  {
    WithRetryFrom(stmts, ok, next, 1)
  }

  lemma SingleStatementAttempt(sql: string, ok: nat -> bool, next: nat)
    ensures RunAttempt([sql], ok, next) == [Exec(sql, ok(next))]
    ensures AllOk([Exec(sql, ok(next))]) <==> ok(next)
  {
    assert [Exec(sql, ok(next))][0].ok == ok(next);
  }

  /** One step of the single-statement loop: a success, or a failure on the
      last allowed attempt, ends the loop; any other failure is followed by
      the rest of the loop one position on. */
  lemma SingleStatementStep(sql: string, ok: nat -> bool, next: nat, attempt: nat)
    requires 1 <= attempt <= MaxRetries
    ensures ok(next) ==> WithRetryFrom([sql], ok, next, attempt) == Run([[Exec(sql, true)]], true)
    ensures !ok(next) && attempt == MaxRetries ==>
      WithRetryFrom([sql], ok, next, attempt) == Run([[Exec(sql, false)]], false)
    ensures !ok(next) && attempt < MaxRetries ==>
      var rest := WithRetryFrom([sql], ok, next + 1, attempt + 1);
      WithRetryFrom([sql], ok, next, attempt) == Run([[Exec(sql, false)]] + rest.attempts, rest.ok)
  {
    SingleStatementAttempt(sql, ok, next);
  }

  /** A single-statement envelope (a batch insert) succeeds exactly when one
      of the next three statements succeeds, and it stops at the first. */
  lemma SingleStatementRetry(sql: string, ok: nat -> bool, next: nat)
    ensures WithRetry([sql], ok, next).ok <==> ok(next) || ok(next + 1) || ok(next + 2)
    ensures |WithRetry([sql], ok, next).attempts| ==
      if ok(next) then 1 else if ok(next + 1) then 2 else 3
  {
    var r1 := WithRetryFrom([sql], ok, next, 1);
    var r2 := WithRetryFrom([sql], ok, next + 1, 2);
    var r3 := WithRetryFrom([sql], ok, next + 2, 3);
    assert WithRetry([sql], ok, next) == r1;
    SingleStatementStep(sql, ok, next, 1);
    if !ok(next) {
      SingleStatementStep(sql, ok, next + 1, 2);
      if !ok(next + 1) {
        SingleStatementStep(sql, ok, next + 2, 3);
        assert r1.ok == r2.ok == r3.ok == ok(next + 2);
      }
    }
  }

  /** Every statement of every attempt got the oracle's answer for its own
      position: attempts consume positions one statement at a time, in order,
      starting at `next`. */
  predicate FollowsOracle(attempts: seq<Attempt>, ok: nat -> bool, next: nat)
    decreases |attempts|
  {
    |attempts| > 0 ==>
      && (forall j {:trigger attempts[0][j]} :: 0 <= j < |attempts[0]| ==> attempts[0][j].ok == ok(next + j))
      && FollowsOracle(attempts[1..], ok, next + |attempts[0]|)
  }

  /** An attempt answered from `next`, followed by attempts answered from
      just after its statements, are answered from `next`. */
  lemma FollowsOracleCons(attempts: seq<Attempt>, ok: nat -> bool, next: nat)
    requires |attempts| > 0
    requires forall j {:trigger attempts[0][j]} :: 0 <= j < |attempts[0]| ==> attempts[0][j].ok == ok(next + j)
    requires FollowsOracle(attempts[1..], ok, next + |attempts[0]|)
    ensures FollowsOracle(attempts, ok, next)
  {
  }

  /** With two statements per attempt (a DROP then a CREATE), every attempt
      starts with the first, sends the second only after the first
      succeeded, and the envelope succeeds exactly when its last attempt
      ran both. */
  lemma TwoStatementRetry(first: string, second: string, ok: nat -> bool, next: nat)
    ensures var r := WithRetry([first, second], ok, next);
      && (forall i :: 0 <= i < |r.attempts| ==> r.attempts[i][0].sql == first)
      && (forall i :: 0 <= i < |r.attempts| && |r.attempts[i]| == 2 ==>
            r.attempts[i][0].ok && r.attempts[i][1].sql == second)
      && (r.ok <==> |r.attempts[|r.attempts| - 1]| == 2 && AllOk(r.attempts[|r.attempts| - 1]))
      && r.attempts[0][0].ok == ok(next)
      && FollowsOracle(r.attempts, ok, next)
  {
    var r := WithRetry([first, second], ok, next);
    assert forall i :: 0 <= i < |r.attempts| ==> IsAttemptOf(r.attempts[i], [first, second]);
  }

  /** Attempts of one statement each use one oracle position apiece. */
  lemma {:induction false} UsedBySingles(attempts: seq<Attempt>)
    requires forall i :: 0 <= i < |attempts| ==> |attempts[i]| == 1
    ensures Used(attempts) == |attempts|
    decreases |attempts|
  {
    if |attempts| > 0 {
      UsedBySingles(attempts[1..]);
    }
  }

  /** With one statement per attempt, the envelope sends one statement per
      attempt, so it advances the oracle by its number of attempts. */
  lemma SingleStatementUsed(sql: string, ok: nat -> bool, next: nat)
    ensures Used(WithRetry([sql], ok, next).attempts) == |WithRetry([sql], ok, next).attempts|
  {
    var r := WithRetry([sql], ok, next);
    assert forall i :: 0 <= i < |r.attempts| ==> IsAttemptOf(r.attempts[i], [sql]);
    UsedBySingles(r.attempts);
  }

  /** What the log would show: each attempt's statements, a pause of
      RETRY_DELAY_MS between consecutive attempts and nowhere else. */
  datatype Event = Statement(sql: string, ok: bool) | Sleep(ms: nat)

  function Statements(a: Attempt): (es: seq<Event>)
    ensures |es| == |a|
    ensures forall i :: 0 <= i < |a| ==> es[i] == Statement(a[i].sql, a[i].ok)
  {
    seq(|a|, i requires 0 <= i < |a| => Statement(a[i].sql, a[i].ok))
  }

  function SleepCount(es: seq<Event>): nat
    decreases |es|
  {
    if |es| == 0 then 0 else (if es[0].Sleep? then 1 else 0) + SleepCount(es[1..])
  }

  lemma {:induction false} SleepCountAppend(a: seq<Event>, b: seq<Event>)
    ensures SleepCount(a + b) == SleepCount(a) + SleepCount(b)
    decreases |a|
  {
    if |a| > 0 {
      assert (a + b)[1..] == a[1..] + b;
      SleepCountAppend(a[1..], b);
    } else {
      assert a + b == b;
    }
  }

  lemma {:induction false} NoSleepInStatements(a: Attempt)
    ensures SleepCount(Statements(a)) == 0
    decreases |a|
  {
    if |a| > 0 {
      assert Statements(a)[1..] == Statements(a[1..]);
      NoSleepInStatements(a[1..]);
    }
  }

  function Events(attempts: seq<Attempt>): (es: seq<Event>)
    ensures SleepCount(es) == if |attempts| == 0 then 0 else |attempts| - 1
    ensures |attempts| > 0 && |attempts[|attempts| - 1]| > 0 ==> |es| > 0 && es[|es| - 1].Statement?
    ensures |attempts| > 0 && |attempts[0]| > 0 ==> |es| > 0 && es[0].Statement?
    decreases |attempts|
  {
    if |attempts| == 0 then []
    else if |attempts| == 1 then
      NoSleepInStatements(attempts[0]);
      Statements(attempts[0])
    else
      var tail := Events(attempts[1..]);
      NoSleepInStatements(attempts[0]);
      SleepCountAppend(Statements(attempts[0]), [Sleep(RetryDelayMs)]);
      SleepCountAppend(Statements(attempts[0]) + [Sleep(RetryDelayMs)], tail);
      assert attempts[1..][|attempts[1..]| - 1] == attempts[|attempts| - 1];
      Statements(attempts[0]) + [Sleep(RetryDelayMs)] + tail
  }

  /** A run pauses at most twice, never before the first attempt and never
      after the last one. */
  lemma PausesOnlyBetweenAttempts(stmts: seq<string>, ok: nat -> bool, next: nat)
    requires |stmts| > 0
    ensures var es := Events(WithRetry(stmts, ok, next).attempts);
      && SleepCount(es) == |WithRetry(stmts, ok, next).attempts| - 1
      && SleepCount(es) <= MaxRetries - 1
      && es[0].Statement? && es[|es| - 1].Statement?
  {
  }
}

=== FILE: schema.dfy ===
/** Column types and columns.  The readers hand `ClickHouseClient` a column
    whose type is a ClickHouse type name; the names form a closed set. */
module Schema {
  import opened Wrappers
  import opened Text

  /** `Date` is produced by neither reader; it exists because the ORDER BY
      selection in `createTableFromFile` tests for it by name. */
  datatype TypeTag = StringType | UInt32 | DateTime | Date

  function TypeName(t: TypeTag): (n: string)
    ensures |n| > 0 && AllWordChars(n)
  {
    match t
    case StringType => "String"
    case UInt32 => "UInt32"
    case DateTime => "DateTime"
    case Date => "Date"
  }

  /** Reads a type name back; the inverse of `TypeName`. */
  function TypeFromName(n: string): (r: Option<TypeTag>)
  {
    if n == "String" then Some(StringType)
    else if n == "UInt32" then Some(UInt32)
    else if n == "DateTime" then Some(DateTime)
    else if n == "Date" then Some(Date)
    else None
  }

  /** Distinct tags print as distinct names, and only those names read back. */
  lemma TypeNameRoundTrip(t: TypeTag, n: string)
    ensures TypeFromName(TypeName(t)) == Some(t)
    ensures TypeFromName(n) == Some(t) ==> n == TypeName(t)
  {
  }

  datatype Column = Column(name: string, ty: TypeTag)

  /** Every name is made of `[A-Za-z0-9_]` only, as both readers ensure. */
  predicate WellNamed(schema: seq<Column>)
  {
    forall i :: 0 <= i < |schema| ==> AllWordChars(schema[i].name)
  }
}

=== FILE: text.dfy ===
/** Character classes and string helpers used by the schema readers and the
    statement builders.  Strings are sequences of Unicode scalar values, which
    is what Java's regex engine iterates over when it applies a character
    class; only ASCII letters are case-mapped (see README, "Left out"). */
module Text {
  import opened Wrappers

  predicate IsDigit(c: char) { '0' <= c <= '9' }

  predicate IsUpper(c: char) { 'A' <= c <= 'Z' }

  predicate IsLower(c: char) { 'a' <= c <= 'z' }

  /** The character class `[a-zA-Z0-9_]`. */
  predicate IsWordChar(c: char) { IsLower(c) || IsUpper(c) || IsDigit(c) || c == '_' }

  /** The character class `[a-z0-9_]`: what a lower-cased sanitised name may hold. */
  predicate IsLowerWordChar(c: char) { IsLower(c) || IsDigit(c) || c == '_' }

  predicate AllWordChars(s: string) { forall i :: 0 <= i < |s| ==> IsWordChar(s[i]) }

  predicate AllLowerWordChars(s: string) { forall i :: 0 <= i < |s| ==> IsLowerWordChar(s[i]) }

  function SanitizeChar(c: char): char { if IsWordChar(c) then c else '_' }

  /** `s.replaceAll("[^a-zA-Z0-9_]", "_")`: every character outside the class
      becomes one underscore, the others stay where they are. */
  function Sanitize(s: string): (r: string)
    ensures |r| == |s|
    ensures AllWordChars(r)
    ensures forall i :: 0 <= i < |s| && IsWordChar(s[i]) ==> r[i] == s[i]
    ensures forall i :: 0 <= i < |s| && !IsWordChar(s[i]) ==> r[i] == '_'
  {
    seq(|s|, i requires 0 <= i < |s| => SanitizeChar(s[i]))
  }

  /** ASCII `toLowerCase` of one character. */
  function LowerChar(c: char): char
  {
    if IsUpper(c) then (c as int + ('a' as int - 'A' as int)) as char else c
  }

  function Lower(s: string): (r: string)
    ensures |r| == |s|
    ensures forall i :: 0 <= i < |s| ==> r[i] == LowerChar(s[i])
  {
    seq(|s|, i requires 0 <= i < |s| => LowerChar(s[i]))
  }

  /** Sanitise, then lower-case: the JSON reader's column-name rule. */
  function SanitizeLower(s: string): (r: string)
    ensures |r| == |s|
    ensures forall i :: 0 <= i < |s| ==> r[i] == LowerChar(SanitizeChar(s[i]))
    ensures AllLowerWordChars(r)
  {
    Lower(Sanitize(s))
  }

  /** A name that is already free of forbidden characters is left alone, and
      only such names are: sanitising is the identity exactly on `[A-Za-z0-9_]*`. */
  lemma SanitizeFixedPoints(s: string)
    ensures Sanitize(s) == s <==> AllWordChars(s)
  {
    if Sanitize(s) == s {
      forall i | 0 <= i < |s| ensures IsWordChar(s[i]) {
        assert Sanitize(s)[i] == s[i];
      }
    }
  }

  lemma SanitizeIdempotent(s: string)
    ensures Sanitize(Sanitize(s)) == Sanitize(s)
  {
    SanitizeFixedPoints(Sanitize(s));
  }

  /** Lower-casing leaves `[a-z0-9_]*` names alone, so the JSON name rule
      is idempotent as well. */
  lemma SanitizeLowerIdempotent(s: string)
    ensures SanitizeLower(SanitizeLower(s)) == SanitizeLower(s)
  {
    var r := SanitizeLower(s);
    SanitizeFixedPoints(r);
    assert Sanitize(r) == r;
    assert Lower(r) == r;
  }

  /** A header "Order Date!" becomes "Order_Date_" under the CSV rule and
      "order_date_" under the JSON rule. */
  lemma SanitizeExample()
    ensures Sanitize("Order Date!") == "Order_Date_"
    ensures SanitizeLower("Order Date!") == "order_date_"
  {
    assert !IsWordChar(' ') && !IsWordChar('!');
  }

  /** `s.endsWith(suffix)`. */
  predicate EndsWith(s: string, suffix: string)
  {
    |suffix| <= |s| && s[|s| - |suffix|..] == suffix
  }

  /** The position of the first occurrence of `c` in `s`, if any. */
  function IndexOf(s: string, c: char): (r: Option<nat>)
    ensures r.None? ==> c !in s
    ensures r.Some? ==> r.value < |s| && s[r.value] == c && c !in s[..r.value]
  {
    if |s| == 0 then None
    else if s[0] == c then Some(0)
    else
      match IndexOf(s[1..], c)
      case None => None
      case Some(i) =>
        assert s[..i + 1] == [s[0]] + s[1..][..i];
        Some(i + 1)
  }

  /** The first `c` after a `c`-free prefix is found right after that prefix. */
  lemma IndexOfAfterFreePrefix(a: string, c: char, b: string)
    requires c !in a
    ensures IndexOf(a + [c] + b, c) == Some(|a|)
  {
    var s := a + [c] + b;
    assert s[|a|] == c;
    assert s[..|a|] == a;
  }

  /** `String.join(sep, parts)`: the parts in order, `sep` between
      neighbours and nowhere else. */
  function Join(parts: seq<string>, sep: string): string
    decreases |parts|
  {
    if |parts| == 0 then ""
    else if |parts| == 1 then parts[0]
    else parts[0] + sep + Join(parts[1..], sep)
  }

  /** `sep` occurs in `s` starting at position `j`. */
  predicate OccursAt(s: string, sep: string, j: int)
  {
    0 <= j && j + |sep| <= |s| && s[j..j + |sep|] == sep
  }

  /** The position of the first occurrence of `sep` in `s`, if any. */
  function Find(s: string, sep: string): (r: Option<nat>)
    requires |sep| > 0
    ensures r.None? ==> forall j :: !OccursAt(s, sep, j)
    ensures r.Some? ==> OccursAt(s, sep, r.value) && forall j :: 0 <= j < r.value ==> !OccursAt(s, sep, j)
    decreases |s|
  {
    if |s| < |sep| then None
    else if s[..|sep|] == sep then
      assert s[0..0 + |sep|] == s[..|sep|];
      Some(0)
    else
      assert !OccursAt(s, sep, 0) by { assert s[0..0 + |sep|] == s[..|sep|]; }
      assert forall j :: 1 <= j ==> (OccursAt(s, sep, j) <==> OccursAt(s[1..], sep, j - 1)) by {
        forall j | 1 <= j ensures OccursAt(s, sep, j) <==> OccursAt(s[1..], sep, j - 1) {
          if j + |sep| <= |s| { assert s[j..j + |sep|] == s[1..][j - 1..j - 1 + |sep|]; }
        }
      }
      match Find(s[1..], sep)
      case None => None
      case Some(i) => Some(i + 1)
  }

  /** A separator after a prefix that does not hold its first character is
      found right after that prefix. */
  lemma {:induction false} FindAfterFreePrefix(a: string, sep: string, b: string)
    requires |sep| > 0 && sep[0] !in a
    ensures Find(a + sep + b, sep) == Some(|a|)
    decreases |a|
  {
    var s := a + sep + b;
    if |a| == 0 {
      assert s[..|sep|] == sep;
    } else {
      assert s[0] != sep[0];
      assert s[..|sep|] != sep by { assert s[..|sep|][0] == s[0]; }
      assert s[1..] == a[1..] + sep + b;
      FindAfterFreePrefix(a[1..], sep, b);
    }
  }

  /** The reader-side inverse of `Join`, as Java's
      `s.split(Pattern.quote(sep), -1)` would compute it: the text between
      consecutive whole occurrences of `sep`, trailing empty parts kept.  It
      undoes `Join` when no part holds `sep[0]`. */
  function Split(s: string, sep: string): (r: seq<string>)
    requires |sep| > 0
    ensures |r| > 0
    decreases |s|
  {
    match Find(s, sep)
    case None => [s]
    case Some(i) => [s[..i]] + Split(s[i + |sep|..], sep)
  }

  /** Only a whole separator cuts: a comma followed by anything but a space
      stays inside its part. */
  lemma SplitNeedsWholeSeparator()
    ensures Split("ab, cd", ", ") == ["ab", "cd"]
    ensures Split("ab,Xcd", ", ") == ["ab,Xcd"]
  {
    FindAfterFreePrefix("ab", ", ", "cd");
    assert "ab, cd"[..2] == "ab" && "ab, cd"[4..] == "cd";
    NoSeparator("cd", ", ");
    assert Split("ab, cd", ", ") == ["ab"] + Split("cd", ", ");
    var t := "ab,Xcd";
    assert t[0] == 'a' && t[1] == 'b' && t[2] == ',' && t[3] == 'X' && t[4] == 'c';
    NoSeparator(t, ", ");
  }

  /** A text in which no position starts a separator is not cut. */
  lemma NoSeparator(s: string, sep: string)
    requires |sep| == 2
    requires forall j :: 0 <= j < |s| - 1 ==> s[j] != sep[0] || s[j + 1] != sep[1]
    ensures Split(s, sep) == [s]
  {
    forall j | 0 <= j && j + |sep| <= |s| ensures !OccursAt(s, sep, j) {
      assert s[j..j + |sep|][0] == s[j] && s[j..j + |sep|][1] == s[j + 1];
    }
  }

  /** Cutting a join at its separators gives back the parts, provided no part
      holds the separator's first character. */
  lemma {:induction false} SplitJoin(parts: seq<string>, sep: string)
    requires |parts| > 0 && |sep| > 0
    requires forall k :: 0 <= k < |parts| ==> sep[0] !in parts[k]
    ensures Split(Join(parts, sep), sep) == parts
    decreases |parts|
  {
    if |parts| == 1 {
      var s := parts[0];
      assert Join(parts, sep) == s;
      forall j | 0 <= j && j + |sep| <= |s| ensures !OccursAt(s, sep, j) {
        assert s[j..j + |sep|][0] == s[j];
      }
    } else {
      var rest := Join(parts[1..], sep);
      var s := parts[0] + sep + rest;
      FindAfterFreePrefix(parts[0], sep, rest);
      assert s[..|parts[0]|] == parts[0];
      assert s[|parts[0]| + |sep|..] == rest;
      SplitJoin(parts[1..], sep);
    }
  }

  /** Concatenation of a sequence of sequences, in order. */
  function Flatten<T>(xss: seq<seq<T>>): (r: seq<T>)
    decreases |xss|
  {
    if |xss| == 0 then [] else xss[0] + Flatten(xss[1..])
  }

  lemma {:induction false} FlattenAppend<T>(a: seq<seq<T>>, b: seq<seq<T>>)
    ensures Flatten(a + b) == Flatten(a) + Flatten(b)
    decreases |a|
  {
    if |a| == 0 {
      assert a + b == b;
    } else {
      assert (a + b)[1..] == a[1..] + b;
      FlattenAppend(a[1..], b);
    }
  }
}

=== FILE: wrappers.dfy ===
/** Failure-carrying values shared by every module of the model.
    `Error` lists the exceptions the core raises to its callers; the
    message texts are kept so that a reader can match them with the code. */
module Wrappers {

  datatype Option<+T> = None | Some(value: T)

  /** The exceptions that leave the core. */
  datatype Error =
    | UnsupportedFormat(path: string)   // "Unsupported file format: " + path
    | CsvNoHeader                       // IOException "CSV file is empty or has no header"
    | JsonEmpty                         // "JSON file is empty"
    | EmptySchema                       // IndexOutOfBoundsException from schema.get(0)
    | TableCreationFailed               // "Table creation failed" after MAX_RETRIES
    | BatchInsertFailed                 // "Batch insert failed" after MAX_RETRIES

  datatype Result<+T> = Ok(value: T) | Err(error: Error)
}
